=== FILE: README.md ===
# pyairbnb core, modelled in Dafny

This project models the part of the `pyairbnb` client that does real work, without its I/O:

- **Request URLs.** The access fragment chosen when an `AuthSetup` is constructed. The URL that `Query._setup_url` builds.
- **`Search.get_listings`.** It fetches a first page, reads `listings_count`, and fetches `int(min(count, 1000) / 50) - 1` more pages. Each extra page comes from a textual `_offset=` rewrite of the previous URL, and its results are appended to the first page's list.
- **The three `_parse_query` methods.** Each one takes a decoded response apart into a record, image entries and side maps:
  - `Search` splits out users, hosts, quotes and tags per listing id;
  - `User` separates out its image fields;
  - `Listing` also unpacks plural image fields into `"<field> <i>"` keys.
- **`LazyDict`.** A dict of placeholders that builds a `User` or `Listing` on first subscript.
- **`googlemaps.get_static` URL assembly.** Markers go last. The URL is then cut to 2048 characters and at its last `|`.

The modules follow the program:

| module | file | models |
|---|---|---|
| `Values` | values.dfy | decoded JSON, the exceptions the client raises, Python subscript/truthiness/iteration on JSON |
| `Text`, `Decimal` | text.dfy, decimal.dfy | `str.join`, `str.split`, `str.rsplit`, `str.replace`, `'{}'.format(n)` for naturals |
| `Params` | params.dfy | `**kwargs` as an ordered list of rendered `(key, value)` pairs; `dict.update`, `dict.pop` |
| `Urls` | urls.dfy | `AuthSetup.__init__`, `Query._setup_url`, the search and listing parameters, the page URL rewrite |
| `Pagination` | pagination.dfy | `Search.get_listings` up to the assignment of `self.query` |
| `Images`, `Decompose` | images.dfy, decompose.dfy | the three `_parse_query` methods |
| `Lazy` | lazy.dfy | `LazyDict.__getitem__`, `keys`, `values`, and `update` on it |
| `Searching` | search_state.dfy | a `Search` instance's attributes across `_parse_query` and `get_listings` |
| `StaticMap` | staticmap.dfy | `googlemaps.get_static` up to the request |

Conventions:

- The HTTP session is a total function `fetch: string -> Result<Json>`. It stands for `session.get(url)`, then `raise_for_status()`, then `res.json()`. A URL yields either a decoded body or an error.
- The class a `LazyDict` builds is a function `make: Json -> Result<V>`, because the constructors of `User` and `Listing` fetch over the network.
- JSON objects are unordered maps. Keyword arguments keep their order, because URLs print them in order.

The model follows the code, including these behaviours:

- **Search image fields are popped unconditionally.** `Search._parse_query` pops all six search image fields without checking that they are there, so a listing that lacks one makes the whole parse raise `KeyError`. The fields are not skipped (`Decompose.SearchMissingFieldFails`).
- **Search does not unpack plural fields.** `Search._parse_query` stores a plural image field such as `picture_urls` as it is. Only `Listing._parse_query` unpacks it.
- **The static-map cut always happens.** The 2048-character limit is the one the `Search.view` docstring names (`pyairbnb/query.py:253`). The cut at the last `|` takes place even when the URL is already shorter, so with two or more markers the last one is always dropped (`StaticMap.ShortUrlDropsLastMarker`).
- **The user dict is keyed by listing id.** `Search._parse_query` keys `users` by listing id (`pyairbnb/query.py:158`) and then adds placeholders for those keys to the user dict (`pyairbnb/query.py:178`). So `search.users[i]` builds a `User` from the listing id `i` (`Searching.UsersKeyedByListing`).
- **The cut can end inside a marker.** When the first 2048 characters hold no `|`, the URL is cut at character 2048, in the middle of a marker or of some other parameter. The cut ends on a marker boundary only when a `|` falls inside the window (`StaticMap.TruncateAtMarkerBoundary`).

## Model

| member | source | states |
|---|---|---|
| Urls.AccessFragment | pyairbnb/query.py:49-61 | the URL access fragment is the uid of the explicit auth, else of the current auth, else `client_id=` followed by the built-in client id |
| Urls.SetupUrlPairsInOrder | pyairbnb/query.py:92-102 | the URL is `api_url + endpoint + access + '&'` followed by the query text, and splitting that text at `&` gives back every `k=v` pair in keyword order when no key or value holds `&` |
| Urls.SetupUrlNoParams | pyairbnb/query.py:95-97 | with no keyword arguments the URL still ends in a lone `&` |
| Urls.SearchParams | pyairbnb/query.py:203-210 | the search sends `_limit=50` and `_offset=0` whatever the caller gave, a non-empty location without spaces, and every other caller parameter unchanged |
| Urls.SearchParamsDistinct | pyairbnb/query.py:206-210 | updating the keyword dict never creates a second entry for a key |
| Urls.SearchParamsKeepPositions | pyairbnb/query.py:206-210 | the caller's parameters keep their keys and their order at the front of the search parameters |
| Urls.SearchParamsAppended | pyairbnb/query.py:206-210 | when the caller gave none of `_limit`, `_offset` and `location`, the search parameters are the caller's followed by `_limit=50`, `_offset=0` and then the escaped location when one is given |
| Urls.LocationEscaped | pyairbnb/query.py:208-210 | the location is sent with every space replaced by `%20`; one without spaces is sent as given |
| Urls.PageStep | pyairbnb/query.py:224-225 | one offset rewrite turns `_offset=<50j>` into `_offset=<50(j+1)>` and changes nothing else, provided `_offset=` occurs nowhere else |
| Urls.PageUrlShape | pyairbnb/query.py:223-230 | after `j` rewrites the URL is the first one with offset `50j` |
| Urls.FirstUrlShape | pyairbnb/query.py:95-101 | the first URL splits around its `_offset=0` parameter into the text before it and the text after it |
| Urls.SearchPageUrl | pyairbnb/query.py:213-230 | provided `_offset=` occurs nowhere in the first URL but in its own parameter, every page URL of a search is the first URL with only the offset value changed, to 50 times the page number. Otherwise `str.replace` would also rewrite the other occurrence, for example in a `price_offset` parameter or a location, and that case is not covered |
| Urls.ListingParams | pyairbnb/query.py:399-402 | a listing request always carries `_format=v1_legacy_for_p3`, overriding the caller's, and keeps every other parameter |
| Pagination.ExtraPages | pyairbnb/query.py:217-223 | the number of extra pages is `min(count, 1000) / 50 - 1` rounded toward zero, none below 100 results, and at most 19 |
| Pagination.PageItems | pyairbnb/query.py:226-229 | an extra page succeeds exactly when it was fetched, holds an iterable `search_results`, and the first page holds a list. It then contributes the items of that value. A failed fetch passes its error on, and a page without `search_results` raises `KeyError`. A first page without `search_results` passes its error on, one whose `search_results` is not a list raises `AttributeError`, and an extra page whose `search_results` cannot be iterated raises `TypeError` |
| Pagination.FetchRest | pyairbnb/query.py:222-230 | the page loop either collects pages 1..n in order or stops at the first page that fails, with that page's error |
| Pagination.FetchFrom | pyairbnb/query.py:212-231 | the first URL is requested first and the rest are its offset rewrites. The number of extra pages follows `listings_count`. A success is the first page with every extra page's results appended in order. A failure comes from the first page or from the last URL requested. The result equals the reference outcome `Pagination.SearchOutcome` for all inputs: success exactly when the first page, its count and every page the count asks for are usable, and otherwise the first error in that order. A count error ends after one request, and no more URLs are requested than the count asks for |
| Pagination.GetListings | pyairbnb/query.py:202-231 | the same, including equality with the reference outcome and the request bound, starting from the URL the search parameters give |
| Pagination.AbortedInRest | pyairbnb/query.py:223-229 | a failure among the extra pages is reported as the error of the last URL requested, after every earlier page was usable |
| Pagination.CollectedStaysFailed | pyairbnb/query.py:222-230 | once a page has raised, no later page changes the outcome: the search ends with that page's error |
| Pagination.MergeKeepsFirst | pyairbnb/query.py:229-232 | the merged result keeps the first page's `metadata` and every other key except `search_results` |
| Pagination.CollectedFullPages | pyairbnb/query.py:223-230 | with full pages, `n` extra pages add exactly `50n` results |
| Pagination.TwoHundredThirtySeven | pyairbnb/query.py:217-230 | a search reporting 237 listings makes four requests and returns 200 results; the 37 on the partial page are never fetched |
| Images.ItemKeyParts | pyairbnb/query.py:379 | an unpacked key names its field before the space and never ends in `s` |
| Images.ItemKeyInjective | pyairbnb/query.py:379 | different (field, index) pairs give different unpacked keys |
| Images.UnpackContents | pyairbnb/query.py:379-380 | unpacking a list gives one key per element, holding that element, and no other key |
| Images.ImagesOfOk | pyairbnb/query.py:377-380 | image extraction fails exactly when a present plural field holds something that cannot be enumerated |
| Images.ImagesOfKeys | pyairbnb/query.py:377-380 | every image key comes from a present field, none is plural, and there is one key per singular field plus one per unpacked element |
| Images.ImagesOfContents | pyairbnb/query.py:377-380 | a present singular field keeps its value under its own name; a present plural field is gone and its `i`-th element is under `"<field> <i>"` for exactly the indices of its list |
| Images.TakenPartition | pyairbnb/query.py:310 | taking the present image fields out of a record splits it into two disjoint parts that together give the record back |
| Images.ImagesOfSingular | pyairbnb/query.py:310 | with no plural field, image extraction is plain taking of the present fields |
| Decompose.UserFields | pyairbnb/query.py:289-292 | no user image field is plural |
| Decompose.ListingFields | pyairbnb/query.py:353-360 | the listing image fields are distinct, spaceless and do not include `user` |
| Decompose.SearchEntries | pyairbnb/query.py:154-155 | `search_results` can be iterated when it is a list, a string or an empty object; anything else raises `TypeError` |
| Decompose.ListingEntry | pyairbnb/query.py:155 | an entry yields its id and listing exactly when it has a `listing` object with a hashable `id` |
| Decompose.IndexLastWins | pyairbnb/query.py:155 | every entry's id is indexed, and an id maps to the listing of the last entry carrying it |
| Decompose.IndexIdsFromEntries | pyairbnb/query.py:155 | every indexed id is the id of some entry |
| Decompose.ParseSearch | pyairbnb/query.py:147-167 | a falsy query changes nothing. A truthy one parses exactly when it has `metadata`, indexable `search_results`, and a user, a host and all six image fields in every listing. A failure after the index is built is a `KeyError` |
| Decompose.SearchSideMaps | pyairbnb/query.py:158-167 | records, users, hosts and images are keyed by exactly the listing ids; quotes and tags only by the ids whose listing has them |
| Decompose.SearchSideValues | pyairbnb/query.py:158-167 | users and hosts are the listings' embedded objects, and a record keeps no moved key |
| Decompose.SearchLossless | pyairbnb/query.py:155-167 | putting a record's images, user, host, quote and tags back gives the listing as it was in the response |
| Decompose.SearchUserOfLastListing | pyairbnb/query.py:155-158 | the user stored for an id is the one of the last entry with that id |
| Decompose.SearchMissingFieldFails | pyairbnb/query.py:158-167 | a listing without a user, a host or one of the six image fields makes the whole parse raise `KeyError` |
| Decompose.ParseUser | pyairbnb/query.py:301-321 | a falsy query changes nothing. A truthy one parses exactly when `metadata`, `user` and its `id` are there, and the result holds that metadata and id |
| Decompose.UserSplit | pyairbnb/query.py:307-310 | the user record loses exactly its present image fields, and record plus images give the user back |
| Decompose.UserImagesUnpackNothing | pyairbnb/query.py:289-292 | user image extraction never unpacks: its images are exactly the present image fields |
| Decompose.ParseListing | pyairbnb/query.py:366-396 | a falsy query changes nothing. A truthy one that parses yields the response's `metadata` and the listing's `id`. When it parses is stated by `Decompose.ListingOk` |
| Decompose.ListingOk | pyairbnb/query.py:372-383 | a listing parses exactly when `metadata`, `listing`, `id` and an object `user` holding `user` are there and every present plural image field can be enumerated |
| Decompose.ListingSplit | pyairbnb/query.py:377-383 | the listing record loses exactly `user` and the present image fields; no image key is plural, and their number is one per singular field plus one per element |
| Decompose.ListingImageField | pyairbnb/query.py:377-380 | each present listing image field appears in the images as its value or as its unpacked elements |
| Lazy.GetItem | pyairbnb/lazy.py:31-38 | subscripting with an unhashable key (a list or a dict) raises `TypeError`, and a missing hashable key raises `KeyError`. A placeholder is replaced by the object built from the key, and a built object is returned as it is. No other entry changes, and an error from building propagates |
| Lazy.GetItemIdempotent | pyairbnb/lazy.py:31-38 | once built, the object is returned again without building, whatever constructor is used |
| Lazy.GetItemIgnoresPlaceholder | pyairbnb/lazy.py:33-36 | the object built depends on the key only, not on the placeholder stored |
| Lazy.GetItemOthersUntouched | pyairbnb/lazy.py:31-38 | a subscript of one key does not change what a subscript of another key returns |
| Lazy.KeysAfterGetItem | pyairbnb/lazy.py:31-41 | `keys()` is the same before and after a subscript, which only succeeds for a stored key |
| Lazy.ValuesAfterGetItem | pyairbnb/lazy.py:31-44 | after a subscript, the values are the old ones plus at most the object just built |
| Searching.ApplyParse | pyairbnb/query.py:175-183 | a parse keeps the query and adds placeholders for the keys of the parsed records to the listing dict and for the keys of the parsed users to the user dict |
| Searching.ParseInto | pyairbnb/query.py:147-151 | a falsy query or a failed parse leaves the instance as it was. A successful parse of a truthy query keeps `query`, stores the parsed attributes and adds the placeholders to both lazy dicts (`Searching.ApplyParse`) |
| Searching.ParseResetsLazy | pyairbnb/query.py:176-178 | a parse resets each parsed record key in the listing dict, and each parsed user key in the user dict, to its placeholder, even a built one. Other ids keep their entries |
| Searching.UsersKeyedByListing | pyairbnb/query.py:158-178 | the keys a parse adds to the user dict are the listing ids of the response, each with itself as placeholder |
| Searching.LazyListingAfterParse | pyairbnb/lazy.py:31-38 | the first subscript of a (hashable) listing id after a parse builds that listing from its id |
| Searching.ParsedIdsHashable | pyairbnb/query.py:155 | every listing id a successful parse keys its dicts by is hashable, so subscripting the lazy dicts with it never raises `TypeError` |
| Searching.AfterFetch | pyairbnb/query.py:214-233 | a failed fetch leaves the instance untouched. Otherwise `query` is set before the parse, so a failing parse leaves the new `query` with the old attributes. A successful parse gives no error and the state that parsing the new `query` produces, lazy dicts included |
| Searching.GetListingsInto | pyairbnb/query.py:186-234 | `get_listings` on an instance is exactly the reference outcome followed by `self.query = data` and the parse. It succeeds when the pages and the parse do. A count error raises with one request and the instance untouched. No more URLs are requested than the count asks for |
| Searching.NewSearch | pyairbnb/query.py:132-145 | the constructor parses the given query and searches only when a location is given, the query is falsy and the parse succeeded. A search then ends exactly as `get_listings` does on the parsed instance: the reference outcome of the first URL, then `self.query = data` and the parse |
| StaticMap.Truncate | pyairbnb/googlemaps.py:60 | the URL sent is at most 2048 characters and a prefix of the assembled URL. When the first 2048 characters hold a `\|` it ends just before the last one; otherwise it is those 2048 characters |
| StaticMap.StaticUrl | pyairbnb/googlemaps.py:34-60 | a `path` with an `enc:...\|` segment raises `AttributeError`; otherwise the URL is a prefix of the assembled URL of at most 2048 characters |
| StaticMap.EncodedPathRaises | pyairbnb/googlemaps.py:44-53 | any `enc:` followed later on the same line by `\|` makes the call raise `AttributeError` |
| StaticMap.PlainPathPasses | pyairbnb/googlemaps.py:44-55 | a path without `enc:`, or without `\|`, does not stop the request |
| StaticMap.AssembledLayout | pyairbnb/googlemaps.py:38-59 | markers come last as `&markers=<value>`, after the other parameters in order and the size, and only when given |
| StaticMap.ShortUrlDropsLastMarker | pyairbnb/googlemaps.py:60 | a URL already within 2048 characters still loses its last marker |
| StaticMap.TruncateAtMarkerBoundary | pyairbnb/googlemaps.py:60 | when a `\|` falls within the first 2048 characters, the URL ends after a whole marker, keeping between one and all but one of them |
| StaticMap.StaticUrlEndsAtMarker | pyairbnb/googlemaps.py:38-60 | the same for the URL `get_static` requests, given `'\|'.join` of markers and no `\|` elsewhere. A `path` parameter is allowed as long as it holds no `\|` |
| StaticMap.BarFreeParamsPass | pyairbnb/googlemaps.py:44-60 | when no parameter other than `markers` holds a `\|`, the path handling never raises and the URL is the truncated assembled URL |
| Params.LookupInQuery | pyairbnb/googlemaps.py:58 | a character of a parameter's value appears in the `&`-joined parameter text |
| Text.SplitJoin | pyairbnb/query.py:95-96 | splitting the `&`-joined pairs gives them back when none holds `&` |
| Text.LastIndex | pyairbnb/googlemaps.py:60 | the index `rsplit` cuts at: the last occurrence of the character, none when absent |
| Decimal.ParseOfString | pyairbnb/query.py:225 | the decimal text of an offset reads back as the same number |
| Decimal.NatToStringInjective | pyairbnb/query.py:225 | different offsets have different decimal texts |
| Params.Put | pyairbnb/query.py:206 | `dict.update` sets the key, keeps every other key's value, and appends a new key at the end or keeps an existing key's position |
| Params.Pop | pyairbnb/googlemaps.py:39 | `kwargs.pop('markers')` returns the value when present and takes out the first pair with that key. The other pairs keep their order and lookups, and in a dict the key is then absent |

## Left out

- HTTP: the sessions, headers, `raise_for_status`, `res.json()`, and the retry loop and image decoding of `get_static` are abstracted as a page-source function. No HTTP status code or body format is modelled.
- `authorizer.py`: the current auth is a parameter. Its session and token are not modelled, only the uid printed into URLs.
- pandas is taken as absent. The `NameError` fallback is modelled, so results are the decomposed dicts and no DataFrame is built. With pandas installed, `Listing._parse_query` would also build a frame from `user['id']`, and that call is not modelled.
- `copy.deepcopy`: values are immutable here, so the copy changes nothing.
- JSON floats are not modelled, so a fractional `listings_count` is not covered.
- Dict iteration order:
  - objects are unordered maps;
  - enumerating a non-empty object (in `extend` or in `enumerate` of a plural image field) yields an `UnorderedIteration` error instead of the keys in insertion order;
  - which listing a `KeyError` names is not recorded.
- Python's `True == 1` key equality is not modelled: `JBool(true)` and `JInt(1)` are different listing ids.
- Keyword argument values are taken as already rendered by `'{!s}'.format`.
- `Query.view`, `_view` and `Search.view` are left out: image download and display, pandas filtering, and the float mean of the coordinates. The static-map model takes markers already joined by `|`.
- The polyline block of `get_static` is modelled only as its error condition. `json` is not imported in that module, so any `enc:...|` match raises and the encoding code never runs.
- `User._add_data` (which refers to an undefined name), `User.get_user` and `Listing.get_listing` are not part of this model beyond their URLs (`Urls.UserUrl`, `Urls.ListingUrl`, `Urls.ListingParams`). Their fetch-then-parse shape is the one `Searching.AfterFetch` models for search.
- `Decompose.ParseSearch`: the listing tags are kept in the parsed value so that the split can be shown lossless. The source computes them but never stores them on the instance.
- `Decompose.ParseListing`: the embedded user object is checked for `user` but not kept, since the source discards it when pandas is absent.
- `Lazy.ValuesOf` returns the set of stored values. `values()` yields one value per key, so two keys holding equal values appear once here.
- `Pagination.GetListings`: `int(count / 50)` uses float division. For a negative integer `listings_count` beyond the float range (below about `-9e309`, that is 50 times the largest float), Python raises `OverflowError`. The model has no floats and yields no extra pages and a success.
- `Pagination.GetListings`: HTTP and decoding errors are one error kind per failed fetch. Which exception `requests` would raise is not distinguished.

=== FILE: decimal.dfy ===
/** Python's `str(n)` for a non-negative int, as used in `'_offset={}'.format(n)`
    and in the `"{} {}".format(field, index)` keys of unpacked image lists. */
module Decimal {

  predicate IsDigit(c: char) {
    '0' <= c <= '9'
  }

  function DigitChar(d: nat): (c: char)
    requires d < 10
    ensures IsDigit(c)
  {
    (48 + d) as char
  }

  function DigitValue(c: char): (d: nat)
    requires IsDigit(c)
    ensures d < 10
  {
    c as int - 48
  }

  /** The canonical spelling: digits only, no leading zero except "0" itself. */
  predicate Canonical(s: string) {
    |s| >= 1
    && (forall i :: 0 <= i < |s| ==> IsDigit(s[i]))
    && (|s| > 1 ==> s[0] != '0')
  }

  /** `str(n)`. */
  function NatToString(n: nat): (s: string)
  {
    if n < 10 then [DigitChar(n)]
    else NatToString(n / 10) + [DigitChar(n % 10)]
  }

  /** `int(s)` on a string of digits. */
  function ParseNat(s: string): nat
    requires forall i :: 0 <= i < |s| ==> IsDigit(s[i])
  {
    if |s| == 0 then 0
    else ParseNat(s[..|s| - 1]) * 10 + DigitValue(s[|s| - 1])
  }

  /** `str(n)` is the canonical spelling of `n`. */
  lemma {:induction false} NatToStringCanonical(n: nat)
    ensures Canonical(NatToString(n))
    ensures n > 0 ==> NatToString(n)[0] != '0'
  {
    if n < 10 {
      assert NatToString(n)[0] as int == 48 + n;
    } else {
      NatToStringCanonical(n / 10);
      var p := NatToString(n / 10);
      assert NatToString(n) == p + [DigitChar(n % 10)];
      assert NatToString(n)[0] == p[0];
    }
  }

  /** `int(str(n)) == n`. */
  lemma {:induction false} ParseOfString(n: nat)
    ensures Canonical(NatToString(n))
    ensures ParseNat(NatToString(n)) == n
  {
    NatToStringCanonical(n);
    if n >= 10 {
      var s := NatToString(n);
      var p := NatToString(n / 10);
      assert s == p + [DigitChar(n % 10)];
      assert s[..|s| - 1] == p;
      ParseOfString(n / 10);
    }
  }

  /** A canonical spelling with a non-zero first digit denotes a positive number. */
  lemma {:induction false} ParsePositive(s: string)
    requires Canonical(s) && s[0] != '0'
    ensures ParseNat(s) >= 1
  {
    if |s| > 1 {
      var p := s[..|s| - 1];
      assert p[0] == s[0];
      ParsePositive(p);
    }
  }

  /** `str(int(s)) == s` for every canonical spelling. */
  lemma {:induction false} StringOfParse(s: string)
    requires Canonical(s)
    ensures NatToString(ParseNat(s)) == s
  {
    if |s| > 1 {
      var p := s[..|s| - 1];
      var d := DigitValue(s[|s| - 1]);
      assert p[0] == s[0];
      ParsePositive(p);
      StringOfParse(p);
      var n := ParseNat(s);
      assert n == ParseNat(p) * 10 + d;
      assert n / 10 == ParseNat(p) && n % 10 == d;
      assert DigitChar(d) == s[|s| - 1];
      assert s == p + [s[|s| - 1]];
    }
  }

  /** Different numbers have different spellings. */
  lemma NatToStringInjective(a: nat, b: nat)
    requires NatToString(a) == NatToString(b)
    ensures a == b
  {
    ParseOfString(a);
    ParseOfString(b);
  }
}

=== FILE: decompose.dfy ===
/** The three `_parse_query` methods: each takes a decoded response apart
    into a primary record and side maps. A falsy response is left alone
    (`None`); otherwise the result is the new attribute values, or the
    exception that aborts the parse. */
module Decompose {
  import opened Values
  import opened Images

  const SEARCH_IMAGE_FIELDS: seq<string> :=
    ["picture_count", "picture_url", "picture_urls", "thumbnail_url", "xl_picture_url", "xl_picture_urls"]
  const USER_IMAGE_FIELDS: seq<string> :=
    ["picture_url", "picture_url_large", "thumbnail_url", "thumbnail_medium_url"]
  const LISTING_IMAGE_FIELDS: seq<string> :=
    ["picture_url", "picture_urls", "thumbnail_url", "thumbnail_urls",
     "map_image_url", "medium_url", "xl_picture_url", "xl_picture_urls"]

  /** Every key a search listing loses. */
  const SEARCH_MOVED: set<string> :=
    {"user", "primary_host", "pricing_quote", "listing_tags"} + set f | f in SEARCH_IMAGE_FIELDS

  lemma UserFields()
    ensures forall i :: 0 <= i < |USER_IMAGE_FIELDS| ==> !Plural(USER_IMAGE_FIELDS[i])
  {
  }

  lemma ListingFields()
    ensures FieldNames(LISTING_IMAGE_FIELDS)
    ensures "user" !in LISTING_IMAGE_FIELDS
  {
  }

  // ----- Search -----

  /** The decomposed search response, keyed by listing id. */
  datatype SearchParsed = SearchParsed(
    metadata: Json,
    records: map<Json, map<string, Json>>,
    users: map<Json, Json>,
    hosts: map<Json, Json>,
    quotes: map<Json, Json>,
    tags: map<Json, Json>,
    images: map<Json, map<string, Json>>)

  /** `for l in res`: the entries of `search_results`. A non-empty object
      yields its key strings, which cannot be subscripted by a string. */
  function SearchEntries(res: Json): (r: Result<seq<Json>>)
    ensures r.Ok? <==> res.JArr? || res.JStr? || res == JObj(map[])
    ensures res.JArr? ==> r == Ok(res.items)
    ensures r.Err? ==> r.error == TypeError
  {
    if res.JObj? && res.fields != map[] then Err(TypeError) else Iterate(res)
  }

  /** `l['listing']['id']` and `l['listing']` of one entry; the id must be
      usable as a dict key. */
  function ListingEntry(l: Json): (r: Result<(Json, map<string, Json>)>)
    ensures r.Ok? <==>
              && l.JObj? && "listing" in l.fields && l.fields["listing"].JObj?
              && "id" in l.fields["listing"].fields && Hashable(l.fields["listing"].fields["id"])
    ensures r.Ok? ==> r.value == (l.fields["listing"].fields["id"], l.fields["listing"].fields)
  {
    var listing :- Subscript(l, "listing");
    var id :- Subscript(listing, "id");
    if !Hashable(id) then Err(TypeError) else Ok((id, listing.fields))
  }

  /** The entry's listing id is `id`. */
  predicate IdIs(l: Json, id: Json) {
    ListingEntry(l).Ok? && ListingEntry(l).value.0 == id
  }

  /** `{l['listing']['id']: l['listing'] for l in res}`. */
  function IndexById(entries: seq<Json>): Result<map<Json, map<string, Json>>> {
    if |entries| == 0 then Ok(map[])
    else
      var earlier :- IndexById(entries[..|entries| - 1]);
      var entry :- ListingEntry(entries[|entries| - 1]);
      Ok(earlier[entry.0 := entry.1])
  }

  /** The index holds exactly the ids of the entries, and each id maps to
      the listing of the LAST entry carrying it. */
  lemma {:induction false} IndexLastWins(entries: seq<Json>, i: nat)
    requires IndexById(entries).Ok? && i < |entries|
    ensures ListingEntry(entries[i]).Ok?
    ensures ListingEntry(entries[i]).value.0 in IndexById(entries).value
    ensures (forall j :: i < j < |entries| ==> !IdIs(entries[j], ListingEntry(entries[i]).value.0)) ==>
              IndexById(entries).value[ListingEntry(entries[i]).value.0] == ListingEntry(entries[i]).value.1
  {
    var n := |entries| - 1;
    var pre := entries[..n];
    if i < n {
      assert pre[i] == entries[i];
      IndexLastWins(pre, i);
      assert IdIs(entries[n], ListingEntry(entries[n]).value.0);
    }
  }

  /** Every id in the index is the id of some entry. */
  lemma {:induction false} IndexIdsFromEntries(entries: seq<Json>)
    requires IndexById(entries).Ok?
    ensures forall id :: id in IndexById(entries).value ==>
              exists i :: 0 <= i < |entries| && IdIs(entries[i], id)
  {
    if |entries| > 0 {
      var n := |entries| - 1;
      var pre := entries[..n];
      IndexIdsFromEntries(pre);
      forall id | id in IndexById(entries).value
        ensures exists i :: 0 <= i < |entries| && IdIs(entries[i], id)
      {
        if id == ListingEntry(entries[n]).value.0 {
          assert IdIs(entries[n], id);
        } else {
          var i :| 0 <= i < n && IdIs(pre[i], id);
          assert entries[i] == pre[i];
        }
      }
    }
  }

  /** The listings of a search response, keyed by id. */
  function SearchIndex(query: Json): Result<map<Json, map<string, Json>>> {
    var res :- Subscript(query, "search_results");
    var entries :- SearchEntries(res);
    IndexById(entries)
  }

  /** A listing that can be taken apart: it has a user, a primary host and
      all six image fields. */
  predicate Separable(rec: map<string, Json>) {
    && "user" in rec
    && "primary_host" in rec
    && forall i :: 0 <= i < |SEARCH_IMAGE_FIELDS| ==> SEARCH_IMAGE_FIELDS[i] in rec
  }

  function UserOf(rec: map<string, Json>): Json
    requires Separable(rec)
  {
    rec["user"]
  }

  function HostOf(rec: map<string, Json>): Json
    requires Separable(rec)
  {
    rec["primary_host"]
  }

  /** The pops of `Search._parse_query`, applied to every listing. */
  function SplitListings(metadata: Json, index: map<Json, map<string, Json>>): SearchParsed
    requires forall id :: id in index ==> Separable(index[id])
  {
    SearchParsed(
      metadata,
      map id | id in index :: index[id] - SEARCH_MOVED,
      map id | id in index :: UserOf(index[id]),
      map id | id in index :: HostOf(index[id]),
      map id | id in index && "pricing_quote" in index[id] :: index[id]["pricing_quote"],
      map id | id in index && "listing_tags" in index[id] :: index[id]["listing_tags"],
      map id | id in index :: Taken(index[id], SEARCH_IMAGE_FIELDS))
  }

  /** `Search._parse_query`. */
  function ParseSearch(query: Json): (r: Result<Option<SearchParsed>>)
    ensures !Truthy(query) ==> r == Ok(None)
    ensures Truthy(query) ==>
              (r.Ok? <==>
                 && Subscript(query, "metadata").Ok?
                 && SearchIndex(query).Ok?
                 && forall id :: id in SearchIndex(query).value ==> Separable(SearchIndex(query).value[id]))
    ensures Truthy(query) && r.Ok? ==> r.value.Some? && r.value.value.metadata == query.fields["metadata"]
    ensures Truthy(query) && Subscript(query, "metadata").Ok? && SearchIndex(query).Ok? && r.Err? ==>
              r.error == KeyError
  {
    if !Truthy(query) then Ok(None)
    else
      var metadata :- Subscript(query, "metadata");
      var index :- SearchIndex(query);
      if forall id :: id in index ==> Separable(index[id]) then
        Ok(Some(SplitListings(metadata, index)))
      else Err(KeyError)
  }

  /** The record and the side maps give back each listing as it was. */
  function Reassembled(p: SearchParsed, id: Json): map<string, Json>
    requires id in p.records && id in p.users && id in p.hosts && id in p.images
  {
    var base := (p.records[id] + p.images[id])["user" := p.users[id]]["primary_host" := p.hosts[id]];
    var withQuote := if id in p.quotes then base["pricing_quote" := p.quotes[id]] else base;
    if id in p.tags then withQuote["listing_tags" := p.tags[id]] else withQuote
  }

  /** Putting a removed key back. */
  lemma Restore(rec: map<string, Json>, removed: set<string>, k: string)
    ensures k in rec ==> (rec - removed)[k := rec[k]] == rec - (removed - {k})
    ensures k !in rec ==> rec - removed == rec - (removed - {k})
  {
  }

  /** A successful search parse is the split of the response's listings. */
  lemma ParsedSearchIsSplit(query: Json, p: SearchParsed)
    requires ParseSearch(query) == Ok(Some(p))
    ensures Truthy(query) && query.JObj? && "metadata" in query.fields
    ensures SearchIndex(query).Ok?
    ensures forall id :: id in SearchIndex(query).value ==> Separable(SearchIndex(query).value[id])
    ensures p == SplitListings(query.fields["metadata"], SearchIndex(query).value)
  {
  }

  /** Search decomposition keys every side map by the listings' ids, and
      `quotes` and `tags` hold an id exactly when its listing had the key. */
  lemma SearchSideMaps(query: Json, p: SearchParsed)
    requires ParseSearch(query) == Ok(Some(p))
    ensures SearchIndex(query).Ok?
    ensures var index := SearchIndex(query).value;
            && p.records.Keys == index.Keys
            && p.users.Keys == index.Keys
            && p.hosts.Keys == index.Keys
            && p.images.Keys == index.Keys
            && (forall id :: id in index ==> (id in p.quotes <==> "pricing_quote" in index[id]))
            && (forall id :: id in index ==> (id in p.tags <==> "listing_tags" in index[id]))
  {
    ParsedSearchIsSplit(query, p);
    SplitKeys(query.fields["metadata"], SearchIndex(query).value);
  }

  lemma SplitKeys(metadata: Json, index: map<Json, map<string, Json>>)
    requires forall id :: id in index ==> Separable(index[id])
    ensures var p := SplitListings(metadata, index);
            && p.records.Keys == index.Keys
            && p.users.Keys == index.Keys
            && p.hosts.Keys == index.Keys
            && p.images.Keys == index.Keys
            && (forall id :: id in index ==> (id in p.quotes <==> "pricing_quote" in index[id]))
            && (forall id :: id in index ==> (id in p.tags <==> "listing_tags" in index[id]))
  {
  }

  /** Users and hosts are the listings' embedded objects, and the remaining
      record has none of the moved keys. */
  lemma SearchSideValues(query: Json, p: SearchParsed)
    requires ParseSearch(query) == Ok(Some(p))
    ensures SearchIndex(query).Ok?
    ensures var index := SearchIndex(query).value;
            && (forall id :: id in index ==> "user" in index[id] && id in p.users && p.users[id] == index[id]["user"])
            && (forall id :: id in index ==>
                  "primary_host" in index[id] && id in p.hosts && p.hosts[id] == index[id]["primary_host"])
            && (forall id, k :: id in index && id in p.records && k in p.records[id] ==> k !in SEARCH_MOVED)
  {
    ParsedSearchIsSplit(query, p);
  }

  /** One listing's parts, put back together, are the listing. */
  lemma ReassembleOne(rec: map<string, Json>, fields: seq<string>, p: SearchParsed, id: Json)
    requires "user" in rec && "primary_host" in rec
    requires id in p.records && id in p.users && id in p.hosts && id in p.images
    requires p.records[id] == rec - ({"user", "primary_host", "pricing_quote", "listing_tags"} + set f | f in fields)
    requires p.users[id] == rec["user"] && p.hosts[id] == rec["primary_host"]
    requires p.images[id] == Taken(rec, fields)
    requires id in p.quotes <==> "pricing_quote" in rec
    requires id in p.quotes ==> p.quotes[id] == rec["pricing_quote"]
    requires id in p.tags <==> "listing_tags" in rec
    requires id in p.tags ==> p.tags[id] == rec["listing_tags"]
    ensures Reassembled(p, id) == rec
  {
    var named: set<string> := {"user", "primary_host", "pricing_quote", "listing_tags"};
    var imageKeys := set f | f in fields;
    var s0 := named - imageKeys;
    TakenPartition(rec, fields);
    assert p.records[id] + p.images[id] == rec - s0 by {
      forall k | k in rec
        ensures k in p.records[id] + p.images[id] <==> k !in s0
      {
      }
    }
    var s1 := s0 - {"user"};
    var s2 := s1 - {"primary_host"};
    var s3 := s2 - {"pricing_quote"};
    var s4 := s3 - {"listing_tags"};
    Restore(rec, s0, "user");
    Restore(rec, s1, "primary_host");
    Restore(rec, s2, "pricing_quote");
    Restore(rec, s3, "listing_tags");
    assert s4 == {};
    assert rec - s4 == rec;
  }

  /** Search decomposition loses nothing: putting the record and the side
      maps back together gives every listing as it was in the response. */
  lemma SearchLossless(query: Json, p: SearchParsed)
    requires ParseSearch(query) == Ok(Some(p))
    ensures SearchIndex(query).Ok?
    ensures forall id :: id in SearchIndex(query).value ==>
              id in p.records && id in p.users && id in p.hosts && id in p.images
              && Reassembled(p, id) == SearchIndex(query).value[id]
  {
    ParsedSearchIsSplit(query, p);
    var index := SearchIndex(query).value;
    forall id | id in index
      ensures id in p.records && id in p.users && id in p.hosts && id in p.images
      ensures Reassembled(p, id) == index[id]
    {
      SplitPieces(query.fields["metadata"], index, id);
      ReassembleOne(index[id], SEARCH_IMAGE_FIELDS, p, id);
    }
  }

  /** The parts of one listing in the split: what `ReassembleOne` needs. */
  lemma SplitPieces(metadata: Json, index: map<Json, map<string, Json>>, id: Json)
    requires forall i :: i in index ==> Separable(index[i])
    requires id in index
    ensures var p := SplitListings(metadata, index);
            var rec := index[id];
            && "user" in rec && "primary_host" in rec
            && id in p.records && id in p.users && id in p.hosts && id in p.images
            && p.records[id] == rec - ({"user", "primary_host", "pricing_quote", "listing_tags"} + set f | f in SEARCH_IMAGE_FIELDS)
            && p.users[id] == rec["user"] && p.hosts[id] == rec["primary_host"]
            && p.images[id] == Taken(rec, SEARCH_IMAGE_FIELDS)
            && (id in p.quotes <==> "pricing_quote" in rec)
            && (id in p.quotes ==> p.quotes[id] == rec["pricing_quote"])
            && (id in p.tags <==> "listing_tags" in rec)
            && (id in p.tags ==> p.tags[id] == rec["listing_tags"])
  {
  }

  /** The user and host stored for an id are the embedded objects of the
      last listing in the response with that id. */
  lemma SearchUserOfLastListing(query: Json, p: SearchParsed, i: nat)
    requires ParseSearch(query) == Ok(Some(p))
    requires query.JObj? && "search_results" in query.fields
    requires var entries := SearchEntries(query.fields["search_results"]);
             entries.Ok? && i < |entries.value| && ListingEntry(entries.value[i]).Ok?
             && forall j :: i < j < |entries.value| ==> !IdIs(entries.value[j], ListingEntry(entries.value[i]).value.0)
    ensures var l := SearchEntries(query.fields["search_results"]).value[i];
            && ListingEntry(l).Ok?
            && var listing := l.fields["listing"].fields;
            && listing["id"] in p.users
            && "user" in listing && "primary_host" in listing
            && p.users[listing["id"]] == listing["user"]
            && p.hosts[listing["id"]] == listing["primary_host"]
  {
    var entries := SearchEntries(query.fields["search_results"]).value;
    IndexLastWins(entries, i);
    SearchSideValues(query, p);
  }

  /** A listing without a user, a primary host or one of the six image
      fields aborts the whole parse with a key error: nothing is skipped. */
  lemma SearchMissingFieldFails(query: Json, id: Json)
    requires Truthy(query) && Subscript(query, "metadata").Ok? && SearchIndex(query).Ok?
    requires id in SearchIndex(query).value
    requires var rec := SearchIndex(query).value[id];
             "user" !in rec || "primary_host" !in rec || exists f :: f in SEARCH_IMAGE_FIELDS && f !in rec
    ensures ParseSearch(query) == Err(KeyError)
  {
    var rec := SearchIndex(query).value[id];
    if "user" in rec && "primary_host" in rec {
      var f :| f in SEARCH_IMAGE_FIELDS && f !in rec;
      var i :| 0 <= i < |SEARCH_IMAGE_FIELDS| && SEARCH_IMAGE_FIELDS[i] == f;
    }
    assert !Separable(rec);
  }

  // ----- User -----

  /** The decomposed user response. */
  datatype UserParsed = UserParsed(metadata: Json, userId: Json, images: map<string, Json>, record: map<string, Json>)

  /** `User._parse_query`. */
  function ParseUser(query: Json): (r: Result<Option<UserParsed>>)
    ensures !Truthy(query) ==> r == Ok(None)
    ensures Truthy(query) ==>
              (r.Ok? <==>
                 && Subscript(query, "metadata").Ok?
                 && Subscript(query, "user").Ok?
                 && Subscript(query.fields["user"], "id").Ok?)
    ensures Truthy(query) && r.Ok? ==>
              && r.value.Some?
              && r.value.value.metadata == query.fields["metadata"]
              && r.value.value.userId == query.fields["user"].fields["id"]
  {
    if !Truthy(query) then Ok(None)
    else
      var metadata :- Subscript(query, "metadata");
      var res :- Subscript(query, "user");
      var userId :- Subscript(res, "id");
      var images := Taken(res.fields, USER_IMAGE_FIELDS);
      Ok(Some(UserParsed(metadata, userId, images, res.fields - images.Keys)))
  }

  /** User decomposition moves the present image fields out of the record
      and nothing else: the two parts are disjoint and together are the
      response's `user` object; the id stays in the record. */
  lemma UserSplit(query: Json, p: UserParsed)
    requires ParseUser(query) == Ok(Some(p))
    ensures query.JObj? && "user" in query.fields && query.fields["user"].JObj?
    ensures var res := query.fields["user"].fields;
            && p.userId == res["id"]
            && p.metadata == query.fields["metadata"]
            && (forall k :: k in p.images <==> k in res && k in USER_IMAGE_FIELDS)
            && (forall k :: k in p.images ==> p.images[k] == res[k])
            && (forall k :: k in p.record ==> k !in USER_IMAGE_FIELDS)
            && "id" in p.record
            && p.record + p.images == res
  {
    var res := query.fields["user"].fields;
    TakenPartition(res, USER_IMAGE_FIELDS);
  }

  /** No user image field is plural, so nothing is unpacked: the user's
      images are what the listing extraction would give for these fields. */
  lemma UserImagesUnpackNothing(query: Json, p: UserParsed)
    requires ParseUser(query) == Ok(Some(p))
    ensures ImagesOf(query.fields["user"].fields, USER_IMAGE_FIELDS) == Ok(p.images)
  {
    UserFields();
    ImagesOfSingular(query.fields["user"].fields, USER_IMAGE_FIELDS);
  }

  // ----- Listing -----

  /** The decomposed listing response. The embedded user is checked for
      but not kept: `Listing` stores no attribute for it. */
  datatype ListingParsed = ListingParsed(metadata: Json, listingId: Json, images: map<string, Json>, record: map<string, Json>)

  /** `Listing._parse_query`. */
  function ParseListing(query: Json): (r: Result<Option<ListingParsed>>)
    ensures !Truthy(query) ==> r == Ok(None)
    ensures Truthy(query) && r.Ok? ==>
              && r.value.Some?
              && Subscript(query, "metadata") == Ok(r.value.value.metadata)
              && Subscript(query, "listing").Ok?
              && Subscript(Subscript(query, "listing").value, "id") == Ok(r.value.value.listingId)
  {
    if !Truthy(query) then Ok(None)
    else
      var metadata :- Subscript(query, "metadata");
      var res :- Subscript(query, "listing");
      var listingId :- Subscript(res, "id");
      var images :- ImagesOf(res.fields, LISTING_IMAGE_FIELDS);
      var rest := res.fields - (set f | f in LISTING_IMAGE_FIELDS);
      var userBox :- Subscript(JObj(rest), "user");
      var _ :- Subscript(userBox, "user");
      Ok(Some(ListingParsed(metadata, listingId, images, rest - {"user"})))
  }

  /** When a listing response parses, and exactly when. */
  lemma ListingOk(query: Json)
    requires Truthy(query)
    ensures ParseListing(query).Ok? <==>
              && Subscript(query, "metadata").Ok?
              && Subscript(query, "listing").Ok?
              && var res := query.fields["listing"];
              && Subscript(res, "id").Ok?
              && (forall i ::
                    (0 <= i < |LISTING_IMAGE_FIELDS| && LISTING_IMAGE_FIELDS[i] in res.fields && Plural(LISTING_IMAGE_FIELDS[i]))
                    ==> Iterate(res.fields[LISTING_IMAGE_FIELDS[i]]).Ok?)
              && "user" in res.fields
              && Subscript(res.fields["user"], "user").Ok?
  {
    if Subscript(query, "metadata").Ok? && Subscript(query, "listing").Ok? {
      var res := query.fields["listing"];
      if res.JObj? {
        ImagesOfOk(res.fields, LISTING_IMAGE_FIELDS);
        ListingFields();
      }
    }
  }

  /** Listing decomposition: the record loses exactly `user` and the image
      fields; the images hold each present singular field as it was and each
      element of a present plural field under `"<field> <i>"`; no image key
      ends in `s`; and there is one image entry per singular field present
      plus one per element of each plural field. */
  lemma ListingSplit(query: Json, p: ListingParsed)
    requires ParseListing(query) == Ok(Some(p))
    ensures query.JObj? && "listing" in query.fields && query.fields["listing"].JObj?
    ensures var res := query.fields["listing"].fields;
            && p.listingId == res["id"]
            && p.metadata == query.fields["metadata"]
            && (forall k :: k in p.record <==> k in res && k !in LISTING_IMAGE_FIELDS && k != "user")
            && (forall k :: k in p.record ==> p.record[k] == res[k])
            && (forall k :: k in p.images ==> !Plural(k) && FieldOf(k) in LISTING_IMAGE_FIELDS && FieldOf(k) in res)
            && |p.images| == ImageCount(res, LISTING_IMAGE_FIELDS)
            && ImagesOf(res, LISTING_IMAGE_FIELDS) == Ok(p.images)
  {
    var res := query.fields["listing"].fields;
    ListingFields();
    ImagesOfKeys(res, LISTING_IMAGE_FIELDS);
  }

  /** Each present listing image field contributes its value, or its
      elements one per key when its name is plural. */
  lemma ListingImageField(query: Json, p: ListingParsed, n: nat)
    requires ParseListing(query) == Ok(Some(p))
    requires n < |LISTING_IMAGE_FIELDS| && LISTING_IMAGE_FIELDS[n] in query.fields["listing"].fields
    ensures var f := LISTING_IMAGE_FIELDS[n];
            var v := query.fields["listing"].fields[f];
            && (!Plural(f) ==> f in p.images && p.images[f] == v)
            && (Plural(f) ==>
                  && Iterate(v).Ok? && f !in p.images
                  && (forall i: nat :: ItemKey(f, i) in p.images <==> i < |Iterate(v).value|)
                  && (forall i :: 0 <= i < |Iterate(v).value| ==> p.images[ItemKey(f, i)] == Iterate(v).value[i]))
  {
    ListingFields();
    ImagesOfContents(query.fields["listing"].fields, LISTING_IMAGE_FIELDS, n);
  }
}

=== FILE: images.dfy ===
/** Image fields of a listing or user record. The fields present in a record
    are taken out of it, and a plural field (a name ending in `s`) holding a
    list is unpacked into one key `"<field> <index>"` per element. */
module Images {
  import opened Values
  import opened Decimal

  /** `f.endswith('s')`. */
  predicate Plural(f: string) {
    |f| > 0 && f[|f| - 1] == 's'
  }

  /** Field names are distinct and hold no space. */
  predicate FieldNames(fields: seq<string>) {
    && (forall i, j :: 0 <= i < j < |fields| ==> fields[i] != fields[j])
    && (forall i :: 0 <= i < |fields| ==> ' ' !in fields[i])
  }

  /** `'{} {}'.format(f, i)`. */
  function ItemKey(f: string, i: nat): string {
    f + " " + NatToString(i)
  }

  /** The text of a key before its first space: the field a key came from. */
  function FieldOf(k: string): string {
    if |k| == 0 || k[0] == ' ' then "" else [k[0]] + FieldOf(k[1..])
  }

  lemma {:induction false} FieldOfSpaceless(f: string, rest: string)
    requires ' ' !in f
    ensures FieldOf(f) == f
    ensures FieldOf(f + " " + rest) == f
  {
    if |f| > 0 {
      FieldOfSpaceless(f[1..], rest);
      assert (f + " " + rest)[1..] == f[1..] + " " + rest;
    }
  }

  /** An unpacked key names its field and its index, and is never plural. */
  lemma ItemKeyParts(f: string, i: nat)
    requires ' ' !in f
    ensures FieldOf(ItemKey(f, i)) == f
    ensures ' ' in ItemKey(f, i)
    ensures !Plural(ItemKey(f, i))
  {
    FieldOfSpaceless(f, NatToString(i));
    NatToStringCanonical(i);
    var k := ItemKey(f, i);
    var s := NatToString(i);
    assert k[|f|] == ' ';
    assert k[|k| - 1] == s[|s| - 1];
  }

  /** Different (field, index) pairs give different keys. */
  lemma ItemKeyInjective(f: string, i: nat, g: string, j: nat)
    requires ' ' !in f && ' ' !in g
    requires ItemKey(f, i) == ItemKey(g, j)
    ensures f == g && i == j
  {
    ItemKeyParts(f, i);
    ItemKeyParts(g, j);
    var k := ItemKey(f, i);
    assert k[|f| + 1..] == NatToString(i);
    assert ItemKey(g, j)[|g| + 1..] == NatToString(j);
    NatToStringInjective(i, j);
  }

  /** `{'f 0': items[0], 'f 1': items[1], ...}`. */
  function Unpack(f: string, items: seq<Json>): map<string, Json> {
    if |items| == 0 then map[]
    else Unpack(f, items[..|items| - 1])[ItemKey(f, |items| - 1) := items[|items| - 1]]
  }

  /** Unpacking gives exactly one key per element, each holding that element. */
  lemma {:induction false} UnpackContents(f: string, items: seq<Json>)
    requires ' ' !in f
    ensures |Unpack(f, items)| == |items|
    ensures forall i :: 0 <= i < |items| ==>
              ItemKey(f, i) in Unpack(f, items) && Unpack(f, items)[ItemKey(f, i)] == items[i]
    ensures forall i: nat :: i >= |items| ==> ItemKey(f, i) !in Unpack(f, items)
    ensures forall k :: k in Unpack(f, items) ==> exists i :: 0 <= i < |items| && k == ItemKey(f, i)
  {
    if |items| > 0 {
      var n := |items| - 1;
      UnpackContents(f, items[..n]);
      ItemKeyOthers(f, n);
      assert forall i :: 0 <= i < n ==> items[..n][i] == items[i];
    }
  }

  /** The key of index `n` is the key of no other index. */
  lemma ItemKeyOthers(f: string, n: nat)
    requires ' ' !in f
    ensures forall i: nat :: i != n ==> ItemKey(f, i) != ItemKey(f, n)
  {
    forall i: nat | i != n
      ensures ItemKey(f, i) != ItemKey(f, n)
    {
      if ItemKey(f, i) == ItemKey(f, n) {
        ItemKeyInjective(f, i, f, n);
      }
    }
  }

  /** The image entries of a record for the given fields, in field order:
      a present singular field as it is, a present plural field unpacked,
      and an absent field not at all. Unpacking fails when the value
      cannot be enumerated. */
  function ImagesOf(rec: map<string, Json>, fields: seq<string>): Result<map<string, Json>> {
    if |fields| == 0 then Ok(map[])
    else
      var earlier :- ImagesOf(rec, fields[..|fields| - 1]);
      var f := fields[|fields| - 1];
      if f !in rec then Ok(earlier)
      else if !Plural(f) then Ok(earlier[f := rec[f]])
      else
        var items :- Iterate(rec[f]);
        Ok(earlier + Unpack(f, items))
  }

  /** How many entries the fields contribute: one per present singular
      field, one per element of a present plural field. */
  function ImageCount(rec: map<string, Json>, fields: seq<string>): nat {
    if |fields| == 0 then 0
    else
      var f := fields[|fields| - 1];
      ImageCount(rec, fields[..|fields| - 1])
      + if f !in rec then 0
        else if !Plural(f) then 1
        else match Iterate(rec[f]) case Ok(items) => |items| case Err(_) => 0
  }

  lemma FieldNamesPrefix(fields: seq<string>)
    requires FieldNames(fields) && |fields| > 0
    ensures FieldNames(fields[..|fields| - 1])
    ensures fields[|fields| - 1] !in fields[..|fields| - 1]
    ensures ' ' !in fields[|fields| - 1]
  {
  }

  lemma DisjointUnion(a: map<string, Json>, b: map<string, Json>)
    requires forall k :: k in a ==> k !in b
    ensures |a + b| == |a| + |b|
  {
    assert (a + b).Keys == a.Keys + b.Keys;
    assert a.Keys !! b.Keys;
  }

  /** Extraction succeeds exactly when every present plural field can be
      enumerated. */
  lemma {:induction false} ImagesOfOk(rec: map<string, Json>, fields: seq<string>)
    ensures ImagesOf(rec, fields).Ok? <==>
            forall i :: 0 <= i < |fields| && fields[i] in rec && Plural(fields[i]) ==> Iterate(rec[fields[i]]).Ok?
  {
    if |fields| > 0 {
      var pre := fields[..|fields| - 1];
      ImagesOfOk(rec, pre);
      assert forall i :: 0 <= i < |pre| ==> pre[i] == fields[i];
    }
  }

  /** Every key comes from a present field and none is plural; there is one
      key per singular field present plus one per element unpacked. */
  lemma {:induction false} ImagesOfKeys(rec: map<string, Json>, fields: seq<string>)
    requires FieldNames(fields)
    requires ImagesOf(rec, fields).Ok?
    ensures forall k :: k in ImagesOf(rec, fields).value ==>
              FieldOf(k) in fields && FieldOf(k) in rec && !Plural(k)
    ensures |ImagesOf(rec, fields).value| == ImageCount(rec, fields)
  {
    if |fields| > 0 {
      var pre := fields[..|fields| - 1];
      var f := fields[|fields| - 1];
      FieldNamesPrefix(fields);
      ImagesOfKeys(rec, pre);
      var earlier := ImagesOf(rec, pre).value;
      FieldOfSpaceless(f, "");
      if f in rec {
        if !Plural(f) {
          assert f !in earlier;
        } else {
          var items := Iterate(rec[f]).value;
          var u := Unpack(f, items);
          UnpackContents(f, items);
          forall k | k in u
            ensures FieldOf(k) == f && !Plural(k) && k !in earlier
          {
            var i :| 0 <= i < |items| && k == ItemKey(f, i);
            ItemKeyParts(f, i);
          }
          DisjointUnion(earlier, u);
        }
      }
    }
  }

  /** What each present field contributes: a singular field its value under
      its own name, a plural field its i-th element under `"<field> <i>"`
      for every index of its list and for no other. */
  lemma {:induction false} ImagesOfContents(rec: map<string, Json>, fields: seq<string>, p: nat)
    requires FieldNames(fields)
    requires ImagesOf(rec, fields).Ok?
    requires p < |fields| && fields[p] in rec
    ensures !Plural(fields[p]) ==>
              fields[p] in ImagesOf(rec, fields).value
              && ImagesOf(rec, fields).value[fields[p]] == rec[fields[p]]
    ensures Plural(fields[p]) ==>
              && Iterate(rec[fields[p]]).Ok?
              && fields[p] !in ImagesOf(rec, fields).value
              && (forall i: nat :: ItemKey(fields[p], i) in ImagesOf(rec, fields).value <==>
                    i < |Iterate(rec[fields[p]]).value|)
              && (forall i :: 0 <= i < |Iterate(rec[fields[p]]).value| ==>
                    ImagesOf(rec, fields).value[ItemKey(fields[p], i)] == Iterate(rec[fields[p]]).value[i])
  {
    var pre := fields[..|fields| - 1];
    var f := fields[|fields| - 1];
    var g := fields[p];
    FieldNamesPrefix(fields);
    ImagesOfKeys(rec, pre);
    var earlier := ImagesOf(rec, pre).value;
    var m := ImagesOf(rec, fields).value;
    FieldOfSpaceless(g, "");
    assert ' ' !in g;
    forall i: nat
      ensures ItemKey(g, i) in earlier ==> FieldOf(ItemKey(g, i)) in pre
      ensures FieldOf(ItemKey(g, i)) == g
    {
      ItemKeyParts(g, i);
    }
    if p == |fields| - 1 {
      assert g !in earlier;
      if Plural(g) {
        var items := Iterate(rec[g]).value;
        UnpackContents(g, items);
        forall k | k in Unpack(g, items)
          ensures k != g
        {
          var i :| 0 <= i < |items| && k == ItemKey(g, i);
          ItemKeyParts(g, i);
        }
      }
    } else {
      assert pre[p] == g;
      ImagesOfContents(rec, pre, p);
      assert g != f;
      FieldOfSpaceless(f, "");
      if f in rec && Plural(f) {
        var items := Iterate(rec[f]).value;
        UnpackContents(f, items);
        forall k | k in Unpack(f, items)
          ensures FieldOf(k) == f
        {
          var i :| 0 <= i < |items| && k == ItemKey(f, i);
          ItemKeyParts(f, i);
        }
      }
    }
  }

  /** `{i: res.pop(i) for i in fields if i in res}`: the present fields. */
  function Taken(rec: map<string, Json>, fields: seq<string>): map<string, Json> {
    map f | f in fields && f in rec :: rec[f]
  }

  /** Taking fields out is a lossless split: what was taken and what is
      left are disjoint and together give back the record. */
  lemma TakenPartition(rec: map<string, Json>, fields: seq<string>)
    ensures var taken := Taken(rec, fields);
            var left := rec - taken.Keys;
            && (forall k :: k in taken ==> k in rec && k in fields && taken[k] == rec[k])
            && (forall k :: k in left ==> k !in fields)
            && (forall k :: k in rec && k in fields ==> k in taken)
            && left + taken == rec
  {
  }

  /** With no plural field, extraction is plain taking. */
  lemma {:induction false} ImagesOfSingular(rec: map<string, Json>, fields: seq<string>)
    requires forall i :: 0 <= i < |fields| ==> !Plural(fields[i])
    ensures ImagesOf(rec, fields) == Ok(Taken(rec, fields))
  {
    if |fields| > 0 {
      var pre := fields[..|fields| - 1];
      var f := fields[|fields| - 1];
      ImagesOfSingular(rec, pre);
      assert forall g :: g in fields <==> g in pre || g == f;
      if f in rec {
        assert Taken(rec, fields) == Taken(rec, pre)[f := rec[f]];
      } else {
        assert Taken(rec, fields) == Taken(rec, pre);
      }
    }
  }
}

=== FILE: lazy.dfy ===
/** `LazyDict`: a dict whose entries start as placeholders and are replaced,
    on first subscript, by an object built from the key. The class whose
    constructor builds the object is an abstract function `make`, which may
    fail (the constructors of `User` and `Listing` fetch over the network). */
module Lazy {
  import opened Values

  /** A stored value: anything that is not yet an instance of the class,
      or an instance built earlier. */
  datatype Slot<V> = Pending(raw: Json) | Built(obj: V)

  /** Keyed by listing or user id. */
  type LazyMap<V> = map<Json, Slot<V>>

  /** What a subscript returns, the dict after it, and whether it built. */
  datatype Access<V> = Access(value: V, data: LazyMap<V>, built: bool)

  /** `LazyDict.__getitem__`: `self.data[key]` raises `TypeError` for a
      list or dict key and `KeyError` for a missing one. */
  function GetItem<V>(data: LazyMap<V>, key: Json, make: Json -> Result<V>): (r: Result<Access<V>>)
    ensures !Hashable(key) ==> r == Err(TypeError)
    ensures Hashable(key) && key !in data ==> r == Err(KeyError)
    ensures r.Ok? ==>
              && Hashable(key)
              && key in data
              && r.value.data.Keys == data.Keys
              && r.value.data[key] == Built(r.value.value)
              && (forall k :: k in data && k != key ==> r.value.data[k] == data[k])
    ensures r.Ok? ==> (r.value.built <==> data[key].Pending?)
    ensures r.Ok? && !r.value.built ==> r.value.data == data && r.value.value == data[key].obj
    ensures r.Ok? && r.value.built ==> make(key) == Ok(r.value.value)
    ensures Hashable(key) && key in data && data[key].Pending? && make(key).Err? ==> r == Err(make(key).error)
  {
    if !Hashable(key) then Err(TypeError)
    else if key !in data then Err(KeyError)
    else
      match data[key]
      case Built(obj) => Ok(Access(obj, data, false))
      case Pending(_) =>
        var obj :- make(key);
        Ok(Access(obj, data[key := Built(obj)], true))
  }

  /** A subscript that has built never builds again: the next subscript of
      the same key, with any constructor, returns the same object and leaves
      the dict as it is. */
  lemma GetItemIdempotent<V>(data: LazyMap<V>, key: Json, make: Json -> Result<V>, make2: Json -> Result<V>)
    requires GetItem(data, key, make).Ok?
    ensures var first := GetItem(data, key, make).value;
            GetItem(first.data, key, make2) == Ok(Access(first.value, first.data, false))
  {
  }

  /** The object built depends on the key only, not on the placeholder. */
  lemma GetItemIgnoresPlaceholder<V>(data: LazyMap<V>, key: Json, raw1: Json, raw2: Json, make: Json -> Result<V>)
    ensures GetItem(data[key := Pending(raw1)], key, make).Ok? <==> GetItem(data[key := Pending(raw2)], key, make).Ok?
    ensures GetItem(data[key := Pending(raw1)], key, make).Ok? ==>
              GetItem(data[key := Pending(raw1)], key, make).value.value
              == GetItem(data[key := Pending(raw2)], key, make).value.value
  {
  }

  /** Subscripts of two different keys do not interfere: each sees the
      entry it would have seen alone. */
  lemma GetItemOthersUntouched<V>(data: LazyMap<V>, a: Json, b: Json, make: Json -> Result<V>)
    requires a != b
    requires GetItem(data, a, make).Ok?
    ensures GetItem(GetItem(data, a, make).value.data, b, make).Ok? <==> GetItem(data, b, make).Ok?
    ensures GetItem(data, b, make).Ok? ==>
              GetItem(GetItem(data, a, make).value.data, b, make).value.value == GetItem(data, b, make).value.value
  {
  }

  /** `keys()`: the stored keys; subscripting never changes them. */
  function KeysOf<V>(data: LazyMap<V>): (ks: set<Json>)
    ensures forall k :: k in ks <==> k in data
  {
    data.Keys
  }

  /** `keys()` is the same before and after a subscript: building an
      object replaces a value, never a key. */
  lemma KeysAfterGetItem<V>(data: LazyMap<V>, key: Json, make: Json -> Result<V>)
    requires GetItem(data, key, make).Ok?
    ensures KeysOf(GetItem(data, key, make).value.data) == KeysOf(data)
    ensures key in KeysOf(data)
  {
  }

  /** `values()`: the stored values as they are, placeholders included;
      nothing is built. */
  function ValuesOf<V(==,!new)>(data: LazyMap<V>): (vs: set<Slot<V>>)
    ensures forall k :: k in data ==> data[k] in vs
    ensures forall v :: v in vs ==> exists k :: k in data && data[k] == v
  {
    data.Values
  }

  /** After a subscript, the values are the old ones with at most the
      subscripted entry's placeholder replaced by the built object. */
  lemma ValuesAfterGetItem<V(!new)>(data: LazyMap<V>, key: Json, make: Json -> Result<V>)
    requires GetItem(data, key, make).Ok?
    ensures var after := GetItem(data, key, make).value;
            && Built(after.value) in ValuesOf(after.data)
            && forall v :: v in ValuesOf(after.data) ==> v in ValuesOf(data) || v == Built(after.value)
  {
    var after := GetItem(data, key, make).value;
    forall v | v in ValuesOf(after.data)
      ensures v in ValuesOf(data) || v == Built(after.value)
    {
      var k :| k in after.data && after.data[k] == v;
      if k != key {
        assert data[k] == v;
      }
    }
  }

  /** `update(entries)` through `__setitem__`: every given key is stored,
      replacing whatever was there, built or not. */
  function Update<V>(data: LazyMap<V>, entries: LazyMap<V>): (r: LazyMap<V>)
    ensures r.Keys == data.Keys + entries.Keys
    ensures forall k :: k in entries ==> r[k] == entries[k]
    ensures forall k :: k in data && k !in entries ==> r[k] == data[k]
  {
    data + entries
  }

  /** Placeholders `{k: k for k in ids}`: each id stands for itself. */
  function Placeholders<V>(ids: set<Json>): (r: LazyMap<V>)
    ensures r.Keys == ids
    ensures forall k :: k in r ==> r[k] == Pending(k)
  {
    map k | k in ids :: Pending(k)
  }
}

=== FILE: pagination.dfy ===
/** `Search.get_listings`: fetch the first page, read the listing count, fetch
    the remaining pages by rewriting the offset in the URL, and append their
    results to the first page's list. The HTTP session is an abstract page
    source: a URL either yields a decoded JSON body or an error. */
module Pagination {
  import opened Values
  import opened Params
  import opened Urls

  const MAX_RESULTS: int := 1000

  /** `int(a / b)` under true division: rounds toward zero. */
  function TruncDiv(a: int, b: int): int
    requires b > 0
  {
    if a >= 0 then a / b else -((-a) / b)
  }

  /** How many pages `get_listings` fetches after the first:
      `int(min(count, 1000) / 50) - 1`, and none when that is negative. */
  function ExtraPages(count: int): (n: nat)
    ensures 0 <= count ==> n + 1 == if count < 1000 then (if count < 100 then 1 else count / 50) else 20
    ensures count < 100 ==> n == 0
    ensures n <= MAX_RESULTS / PAGE_SIZE - 1
    ensures (n + 1) * PAGE_SIZE <= if count < 100 then PAGE_SIZE else count
  {
    var capped := if count <= MAX_RESULTS then count else MAX_RESULTS;
    var pages := TruncDiv(capped, PAGE_SIZE) - 1;
    if pages < 0 then 0 else pages
  }

  /** `data['metadata']['listings_count']`, which must be a number. */
  function ListingsCount(data: Json): Result<int> {
    var meta :- Subscript(data, "metadata");
    var count :- Subscript(meta, "listings_count");
    AsNumber(count)
  }

  /** The first page holds a list under `search_results`, so it can be extended. */
  predicate HasResultList(first: Json) {
    first.JObj? && "search_results" in first.fields && first.fields["search_results"].JArr?
  }

  /** What one extra page adds: `res.json()['search_results']`, appended to
      `data['search_results']` of the first page, which must be a list. */
  function PageItems(first: Json, response: Result<Json>): (r: Result<seq<Json>>)
    ensures r.Ok? <==>
              && response.Ok?
              && HasResultList(first)
              && Subscript(response.value, "search_results").Ok?
              && Iterate(Subscript(response.value, "search_results").value).Ok?
    ensures response.Err? ==> r == Err(response.error)
    ensures response.Ok? && Subscript(response.value, "search_results").Err? ==>
              r == Err(Subscript(response.value, "search_results").error)
    ensures r.Ok? ==> r.value == Iterate(Subscript(response.value, "search_results").value).value
    ensures response.Ok? && Subscript(response.value, "search_results").Ok? && Subscript(first, "search_results").Err? ==>
              r == Err(Subscript(first, "search_results").error)
    ensures response.Ok? && Subscript(response.value, "search_results").Ok? && Subscript(first, "search_results").Ok?
            && !Subscript(first, "search_results").value.JArr?
            ==> r == Err(AttributeError)
    ensures response.Ok? && HasResultList(first) && Subscript(response.value, "search_results").Ok?
            && Iterate(Subscript(response.value, "search_results").value).Err?
            ==> r == Err(Iterate(Subscript(response.value, "search_results").value).error)
    ensures response.Ok? && HasResultList(first) && Subscript(response.value, "search_results").Ok?
            && Subscript(response.value, "search_results").value.JArr?
            ==> r == Ok(Subscript(response.value, "search_results").value.items)
  {
    var page :- response;
    var items :- Subscript(page, "search_results");
    var current :- Subscript(first, "search_results");
    if !current.JArr? then Err(AttributeError)
    else Iterate(items)
  }

  /** Reference definition: the results of extra pages 1..n in page order,
      or the first error met on the way. */
  function Collected(fetch: string -> Result<Json>, first: Json, url0: string, n: nat): Result<seq<Json>> {
    if n == 0 then Ok([])
    else
      var earlier :- Collected(fetch, first, url0, n - 1);
      var items :- PageItems(first, fetch(PageUrl(url0, n)));
      Ok(earlier + items)
  }

  /** Once a page has failed, collecting further pages keeps that error:
      the loop never gets past it. */
  lemma {:induction false} CollectedStaysFailed(fetch: string -> Result<Json>, first: Json, url0: string, n: nat, m: nat)
    requires Collected(fetch, first, url0, n).Err? && n <= m
    ensures Collected(fetch, first, url0, m) == Collected(fetch, first, url0, n)
    decreases m
  {
    if n < m {
      CollectedStaysFailed(fetch, first, url0, n, m - 1);
    }
  }

  /** The first response with more results appended to its list. */
  function Merge(first: Json, extra: seq<Json>): Json {
    if HasResultList(first) then
      JObj(first.fields["search_results" := JArr(first.fields["search_results"].items + extra)])
    else first
  }

  /** Reference definition of what `get_listings` produces before parsing:
      the first page, its listing count, the extra pages that count asks
      for, merged; or the first error in that order. */
  function SearchOutcome(fetch: string -> Result<Json>, url0: string): Result<Json> {
    var first :- fetch(url0);
    var count :- ListingsCount(first);
    var extra :- Collected(fetch, first, url0, ExtraPages(count));
    Ok(Merge(first, extra))
  }

  /** The search aborted at the last URL it requested: the first response
      and every extra page before the last were usable, the last was not,
      and its error is the one reported. The last URL requested is the
      one of page `|requested| - 1`. */
  predicate AbortedAtLast(fetch: string -> Result<Json>, requested: seq<string>, error: Error) {
    && |requested| > 1
    && fetch(requested[0]).Ok?
    && FailedAt(fetch, fetch(requested[0]).value, requested[0], |requested| - 1, error)
  }

  /** An error from the extra pages, after a usable first page, is an abort
      at the last URL requested. */
  lemma AbortedInRest(fetch: string -> Result<Json>, url0: string, first: Json, fetched: nat, error: Error)
    requires fetch(url0) == Ok(first)
    requires FailedAt(fetch, first, url0, fetched, error)
    ensures AbortedAtLast(fetch, [url0] + PageUrls(url0, fetched), error)
  {
    ConsEnds(url0, PageUrls(url0, fetched));
  }

  lemma ConsEnds(x: string, s: seq<string>)
    requires |s| >= 1
    ensures |[x] + s| == |s| + 1 && ([x] + s)[0] == x && ([x] + s)[|s|] == s[|s| - 1]
  {
  }

  /** `requested` are the URLs of pages `from`, `from + 1`, ... in that order. */
  predicate PagesFrom(url0: string, requested: seq<string>, from: nat) {
    forall j :: 0 <= j < |requested| ==> requested[j] == PageUrl(url0, from + j)
  }

  lemma PagesFromFirst(url0: string, more: seq<string>)
    requires PagesFrom(url0, more, 1)
    ensures PagesFrom(url0, [url0] + more, 0)
    ensures ([url0] + more)[0] == url0 && |[url0] + more| == |more| + 1
    ensures |more| > 0 ==> ([url0] + more)[|more|] == more[|more| - 1]
  {
    var all := [url0] + more;
    forall j | 0 <= j < |all|
      ensures all[j] == PageUrl(url0, j)
    {
      if j > 0 {
        assert all[j] == more[j - 1];
      }
    }
  }

  /** The URLs of extra pages 1..n. */
  function PageUrls(url0: string, n: nat): (urls: seq<string>)
    ensures |urls| == n && PagesFrom(url0, urls, 1)
  {
    if n == 0 then []
    else
      var earlier := PageUrls(url0, n - 1);
      assert forall j :: 0 <= j < n - 1 ==> (earlier + [PageUrl(url0, n)])[j] == earlier[j];
      earlier + [PageUrl(url0, n)]
  }

  /** Extra pages 1..n-1 were usable and page n failed with `error`. */
  predicate FailedAt(fetch: string -> Result<Json>, first: Json, url0: string, n: nat, error: Error) {
    && 1 <= n
    && Collected(fetch, first, url0, n - 1).Ok?
    && PageItems(first, fetch(PageUrl(url0, n))) == Err(error)
  }

  /** One more page either extends the collected results or is where the
      collection fails. */
  lemma CollectedNext(fetch: string -> Result<Json>, first: Json, url0: string, n: nat, acc: seq<Json>)
    requires Collected(fetch, first, url0, n) == Ok(acc)
    ensures var step := PageItems(first, fetch(PageUrl(url0, n + 1)));
            && (step.Ok? ==> Collected(fetch, first, url0, n + 1) == Ok(acc + step.value) && HasResultList(first))
            && (step.Err? ==> Collected(fetch, first, url0, n + 1) == Err(step.error))
  {
  }

  /** The loop of `get_listings` over pages 1..pages: fetch each page URL,
      stopping at the first failure. `fetched` counts the pages requested. */
  method FetchRest(fetch: string -> Result<Json>, first: Json, url0: string, pages: nat)
    returns (r: Result<seq<Json>>, fetched: nat)
    ensures fetched <= pages
    ensures r.Ok? ==> fetched == pages && Collected(fetch, first, url0, pages) == r
    ensures r.Err? ==> FailedAt(fetch, first, url0, fetched, r.error)
    ensures r.Ok? && pages > 0 ==> HasResultList(first)
  {
    var acc: seq<Json> := [];
    fetched := 0;
    while fetched < pages
      invariant fetched <= pages
      invariant Collected(fetch, first, url0, fetched) == Ok(acc)
      invariant fetched > 0 ==> HasResultList(first)
    {
      var step := PageItems(first, fetch(PageUrl(url0, fetched + 1)));
      CollectedNext(fetch, first, url0, fetched, acc);
      if step.Err? {
        return Err(step.error), fetched + 1;
      }
      acc := acc + step.value;
      fetched := fetched + 1;
    }
    r := Ok(acc);
  }

  /** `get_listings` from a given first URL: fetch it, read the listing
      count, fetch the extra pages, merge. `requested` lists the URLs fetched. */
  method FetchFrom(fetch: string -> Result<Json>, url0: string)
    returns (r: Result<Json>, requested: seq<string>)
    ensures |requested| >= 1 && requested[0] == url0
    ensures PagesFrom(url0, requested, 0)
    ensures |requested| <= MAX_RESULTS / PAGE_SIZE
    ensures fetch(url0).Err? ==> r == Err(fetch(url0).error) && |requested| == 1
    ensures r.Ok? ==>
              && fetch(url0).Ok?
              && var first := fetch(url0).value;
              && ListingsCount(first).Ok?
              && |requested| == 1 + ExtraPages(ListingsCount(first).value)
              && Collected(fetch, first, url0, |requested| - 1).Ok?
              && r.value == Merge(first, Collected(fetch, first, url0, |requested| - 1).value)
    ensures r.Err? && |requested| > 1 ==> AbortedAtLast(fetch, requested, r.error)
    ensures r == SearchOutcome(fetch, url0)
    ensures fetch(url0).Ok? && ListingsCount(fetch(url0).value).Err? ==> |requested| == 1
    ensures fetch(url0).Ok? && ListingsCount(fetch(url0).value).Ok? ==>
              |requested| <= 1 + ExtraPages(ListingsCount(fetch(url0).value).value)
  {
    requested := [url0];
    var response := fetch(url0);
    if response.Err? {
      return Err(response.error), requested;
    }
    var first := response.value;
    var count := ListingsCount(first);
    if count.Err? {
      return Err(count.error), requested;
    }
    var pages := ExtraPages(count.value);
    var rest, fetched := FetchRest(fetch, first, url0, pages);
    requested := [url0] + PageUrls(url0, fetched);
    PagesFromFirst(url0, PageUrls(url0, fetched));
    if rest.Err? {
      AbortedInRest(fetch, url0, first, fetched, rest.error);
      assert Collected(fetch, first, url0, fetched) == Err(rest.error);
      CollectedStaysFailed(fetch, first, url0, fetched, pages);
      return Err(rest.error), requested;
    }
    assert |requested| - 1 == pages;
    r := Ok(Merge(first, rest.value));
  }

  /** `get_listings` up to (not including) the assignment to `self.query`:
      the first URL carries the search parameters. */
  method GetListings(fetch: string -> Result<Json>, access: string, location: string, kwargs: Params)
    returns (r: Result<Json>, requested: seq<string>)
    ensures |requested| >= 1 && requested[0] == FirstSearchUrl(access, location, kwargs)
    ensures PagesFrom(requested[0], requested, 0)
    ensures |requested| <= MAX_RESULTS / PAGE_SIZE
    ensures fetch(requested[0]).Err? ==> r == Err(fetch(requested[0]).error) && |requested| == 1
    ensures r.Ok? ==>
              && fetch(requested[0]).Ok?
              && var first := fetch(requested[0]).value;
              && ListingsCount(first).Ok?
              && |requested| == 1 + ExtraPages(ListingsCount(first).value)
              && Collected(fetch, first, requested[0], |requested| - 1).Ok?
              && r.value == Merge(first, Collected(fetch, first, requested[0], |requested| - 1).value)
    ensures r.Err? && |requested| > 1 ==> AbortedAtLast(fetch, requested, r.error)
    ensures r == SearchOutcome(fetch, requested[0])
    ensures fetch(requested[0]).Ok? && ListingsCount(fetch(requested[0]).value).Err? ==> |requested| == 1
    ensures fetch(requested[0]).Ok? && ListingsCount(fetch(requested[0]).value).Ok? ==>
              |requested| <= 1 + ExtraPages(ListingsCount(fetch(requested[0]).value).value)
  {
    r, requested := FetchFrom(fetch, FirstSearchUrl(access, location, kwargs));
  }

  /** `metadata` of the merged result is the first response's, and so is
      every other key except `search_results`. */
  lemma MergeKeepsFirst(first: Json, extra: seq<Json>)
    requires first.JObj?
    ensures Merge(first, extra).JObj?
    ensures forall k :: k in first.fields && k != "search_results" ==>
              k in Merge(first, extra).fields && Merge(first, extra).fields[k] == first.fields[k]
    ensures Subscript(Merge(first, extra), "metadata") == Subscript(first, "metadata")
  {
  }

  /** When every page is full, the merged list has 50 results per fetch. */
  lemma {:induction false} CollectedFullPages(fetch: string -> Result<Json>, first: Json, url0: string, n: nat)
    requires HasResultList(first)
    requires forall j :: 1 <= j <= n ==>
               fetch(PageUrl(url0, j)).Ok?
               && Subscript(fetch(PageUrl(url0, j)).value, "search_results").Ok?
               && Subscript(fetch(PageUrl(url0, j)).value, "search_results").value.JArr?
               && |Subscript(fetch(PageUrl(url0, j)).value, "search_results").value.items| == PAGE_SIZE
    ensures Collected(fetch, first, url0, n).Ok?
    ensures |Collected(fetch, first, url0, n).value| == PAGE_SIZE * n
  {
    if n > 0 {
      CollectedFullPages(fetch, first, url0, n - 1);
    }
  }

  /** A search reporting 237 listings, served full pages, makes 4 fetches
      and returns 200 results: the 37 on a partial page are never fetched. */
  lemma TwoHundredThirtySeven(fetch: string -> Result<Json>, url0: string, first: Json)
    requires HasResultList(first) && |first.fields["search_results"].items| == PAGE_SIZE
    requires ListingsCount(first) == Ok(237)
    requires forall j :: 1 <= j <= 3 ==>
               fetch(PageUrl(url0, j)).Ok?
               && Subscript(fetch(PageUrl(url0, j)).value, "search_results").Ok?
               && Subscript(fetch(PageUrl(url0, j)).value, "search_results").value.JArr?
               && |Subscript(fetch(PageUrl(url0, j)).value, "search_results").value.items| == PAGE_SIZE
    ensures 1 + ExtraPages(ListingsCount(first).value) == 4
    ensures Collected(fetch, first, url0, 3).Ok?
    ensures var merged := Merge(first, Collected(fetch, first, url0, 3).value);
            HasResultList(merged) && |merged.fields["search_results"].items| == 200
  {
    CollectedFullPages(fetch, first, url0, 3);
  }
}

=== FILE: params.dfy ===
/** Keyword arguments: an insertion-ordered dict of already-rendered strings,
    as `**kwargs` is in Python 3. */
module Params {
  import opened Values
  import opened Text

  type Params = seq<(string, string)>

  predicate DistinctKeys(kw: Params) {
    forall i, j :: 0 <= i < j < |kw| ==> kw[i].0 != kw[j].0
  }

  /** `kw.get(k)`. */
  function Lookup(kw: Params, k: string): Option<string>
  {
    if |kw| == 0 then None
    else if kw[0].0 == k then Some(kw[0].1)
    else Lookup(kw[1..], k)
  }

  /** Every listed key can be looked up. */
  lemma {:induction false} LookupPresent(kw: Params, i: nat)
    requires i < |kw|
    ensures Lookup(kw, kw[i].0).Some?
  {
    if i > 0 && kw[0].0 != kw[i].0 {
      LookupPresent(kw[1..], i - 1);
    }
  }

  /** A key that is not listed is not found. */
  lemma {:induction false} LookupAbsent(kw: Params, k: string)
    requires forall i :: 0 <= i < |kw| ==> kw[i].0 != k
    ensures Lookup(kw, k).None?
  {
    if |kw| > 0 {
      LookupAbsent(kw[1..], k);
    }
  }

  /** In a dict, each listed pair is what lookup finds. */
  lemma {:induction false} LookupAt(kw: Params, p: nat)
    requires DistinctKeys(kw) && p < |kw|
    ensures Lookup(kw, kw[p].0) == Some(kw[p].1)
  {
    if p > 0 {
      assert kw[0].0 != kw[p].0;
      LookupAt(kw[1..], p - 1);
    }
  }

  /** `kw[k] = v`: an existing key keeps its position, a new key goes last. */
  function Put(kw: Params, k: string, v: string): (r: Params)
    ensures Lookup(r, k) == Some(v)
    ensures forall k' :: k' != k ==> Lookup(r, k') == Lookup(kw, k')
    ensures Lookup(kw, k).None? ==> r == kw + [(k, v)]
    ensures Lookup(kw, k).Some? ==> |r| == |kw| && forall i :: 0 <= i < |kw| ==> r[i].0 == kw[i].0
  {
    if |kw| == 0 then [(k, v)]
    else if kw[0].0 == k then [(k, v)] + kw[1..]
    else [kw[0]] + Put(kw[1..], k, v)
  }

  /** Assignment never introduces a duplicate key. */
  lemma {:induction false} PutKeepsDistinct(kw: Params, k: string, v: string)
    requires DistinctKeys(kw)
    ensures DistinctKeys(Put(kw, k, v))
  {
    if |kw| > 0 && kw[0].0 != k {
      var rest := Put(kw[1..], k, v);
      PutKeepsDistinct(kw[1..], k, v);
      LookupAbsent(kw[1..], kw[0].0);
      forall i | 0 <= i < |rest|
        ensures rest[i].0 != kw[0].0
      {
        LookupPresent(rest, i);
      }
      assert Put(kw, k, v) == [kw[0]] + rest;
    }
  }

  /** `i` is the position of the first pair with key `k`. */
  predicate FirstWithKey(kw: Params, k: string, i: int) {
    0 <= i < |kw| && kw[i].0 == k && forall j :: 0 <= j < i ==> kw[j].0 != k
  }

  /** Where the first pair with key `k` sits, if any. */
  function KeyIndex(kw: Params, k: string): (r: Option<nat>)
    ensures r.Some? ==> FirstWithKey(kw, k, r.value)
    ensures r.None? ==> forall i :: 0 <= i < |kw| ==> kw[i].0 != k
  {
    if |kw| == 0 then None
    else if kw[0].0 == k then Some(0)
    else
      match KeyIndex(kw[1..], k)
      case None => None
      case Some(i) =>
        assert forall j :: 1 <= j <= i ==> kw[j] == kw[1..][j - 1];
        Some(i + 1)
  }

  /** Lookup finds the first pair with its key. */
  lemma {:induction false} LookupFirst(kw: Params, k: string, i: nat)
    requires FirstWithKey(kw, k, i)
    ensures Lookup(kw, k) == Some(kw[i].1)
  {
    if i > 0 {
      assert kw[0].0 != k;
      assert forall j :: 0 <= j < i - 1 ==> kw[1..][j] == kw[j + 1];
      LookupFirst(kw[1..], k, i - 1);
    }
  }

  /** Removing a pair does not change the lookup of any other key. */
  lemma {:induction false} LookupWithout(kw: Params, i: nat, k: string)
    requires i < |kw| && kw[i].0 != k
    ensures Lookup(kw[..i] + kw[i + 1..], k) == Lookup(kw, k)
  {
    if i == 0 {
      assert kw[..0] + kw[1..] == kw[1..];
    } else {
      var tail := kw[1..];
      assert kw[..i] + kw[i + 1..] == [kw[0]] + (tail[..i - 1] + tail[i..]);
      if kw[0].0 != k {
        LookupWithout(tail, i - 1, k);
      }
    }
  }

  /** Removing the pair at `i` keeps every other lookup, and in a dict
      leaves a dict without that key. */
  lemma PopAt(kw: Params, i: nat)
    requires i < |kw|
    ensures forall k' :: k' != kw[i].0 ==> Lookup(kw[..i] + kw[i + 1..], k') == Lookup(kw, k')
    ensures DistinctKeys(kw) ==> DistinctKeys(kw[..i] + kw[i + 1..]) && Lookup(kw[..i] + kw[i + 1..], kw[i].0).None?
  {
    var rest := kw[..i] + kw[i + 1..];
    forall k' | k' != kw[i].0
      ensures Lookup(rest, k') == Lookup(kw, k')
    {
      LookupWithout(kw, i, k');
    }
    if DistinctKeys(kw) {
      RemoveAtDistinct(kw, i);
      LookupAbsent(rest, kw[i].0);
    }
  }

  /** Removing a pair from a dict leaves a dict in which its key is absent. */
  lemma RemoveAtDistinct(kw: Params, i: nat)
    requires DistinctKeys(kw) && i < |kw|
    ensures var rest := kw[..i] + kw[i + 1..];
            DistinctKeys(rest) && forall a :: 0 <= a < |rest| ==> rest[a].0 != kw[i].0
  {
    var rest := kw[..i] + kw[i + 1..];
    assert forall a :: 0 <= a < |rest| ==> rest[a] == if a < i then kw[a] else kw[a + 1];
  }

  /** `kw.pop(k)` caught for a missing key: the popped value, if any, and the
      rest. The first pair with key `k` is taken out and the others keep
      their order; in a dict the key is gone afterwards. */
  function Pop(kw: Params, k: string): (r: (Option<string>, Params))
    ensures r.0 == Lookup(kw, k)
    ensures forall k' :: k' != k ==> Lookup(r.1, k') == Lookup(kw, k')
    ensures Lookup(kw, k).None? ==> r.1 == kw
    ensures Lookup(kw, k).Some? ==>
              exists i :: FirstWithKey(kw, k, i) && r.1 == kw[..i] + kw[i + 1..]
    ensures DistinctKeys(kw) ==> Lookup(r.1, k).None? && DistinctKeys(r.1)
    ensures |r.1| <= |kw|
  {
    match KeyIndex(kw, k)
    case None =>
      LookupAbsent(kw, k);
      (None, kw)
    case Some(i) =>
      LookupFirst(kw, k, i);
      PopAt(kw, i);
      (Some(kw[i].1), kw[..i] + kw[i + 1..])
  }

  /** The `k=v` strings, in order. */
  function Render(kw: Params): (r: seq<string>)
    ensures |r| == |kw|
    ensures forall i :: 0 <= i < |kw| ==> r[i] == kw[i].0 + "=" + kw[i].1
  {
    if |kw| == 0 then []
    else
      var earlier := Render(kw[..|kw| - 1]);
      var last := kw[|kw| - 1];
      assert forall i :: 0 <= i < |kw| - 1 ==> (earlier + [last.0 + "=" + last.1])[i] == earlier[i];
      earlier + [last.0 + "=" + last.1]
  }

  /** `'&'.join('{}={}'.format(k, v) for k, v in kw.items())`. */
  function Query(kw: Params): string {
    Join(Render(kw), '&')
  }

  /** A value that lookup finds is printed in the query text, so a
      character of it occurs there. */
  lemma LookupInQuery(kw: Params, k: string, c: char)
    requires Lookup(kw, k).Some? && c in Lookup(kw, k).value
    ensures c in Query(kw)
  {
    var i := LookupIndex(kw, k);
    var parts := Render(kw);
    assert parts[i] == kw[i].0 + "=" + kw[i].1;
    assert c in parts[i];
    InJoinPart(parts, i, '&', c);
  }

  /** Where lookup found its value. */
  lemma LookupIndex(kw: Params, k: string) returns (i: nat)
    requires Lookup(kw, k).Some?
    ensures i < |kw| && kw[i].0 == k && Lookup(kw, k) == Some(kw[i].1)
  {
    if KeyIndex(kw, k).None? {
      LookupAbsent(kw, k);
      assert false;
    }
    i := KeyIndex(kw, k).value;
    LookupFirst(kw, k, i);
  }

  /** A character of one part occurs in the join. */
  lemma InJoinPart(parts: seq<string>, i: nat, sep: char, c: char)
    requires i < |parts| && c in parts[i]
    ensures c in Join(parts, sep)
  {
    JoinAround(parts, i, sep);
    var pre := Join(parts[..i], sep) + (if i > 0 then [sep] else []);
    var post := (if i + 1 < |parts| then [sep] else []) + Join(parts[i + 1..], sep);
    assert Join(parts, sep) == pre + parts[i] + post;
    var j :| 0 <= j < |parts[i]| && parts[i][j] == c;
    assert Join(parts, sep)[|pre| + j] == c;
  }
}

=== FILE: search_state.dfy ===
/** The attributes of a `Search` instance that `_parse_query` and
    `get_listings` set, and how a completed search updates them. */
module Searching {
  import opened Values
  import opened Params
  import opened Urls
  import opened Pagination
  import opened Decompose
  import opened Lazy

  /** `query`, the parsed attributes (`results`, `hosts`, `quotes`,
      `images`, `metadata`, the additional user data) and the two lazy
      dicts of listing and user objects. */
  datatype SearchState<L, U> = SearchState(
    query: Json,
    parsed: Option<SearchParsed>,
    listings: LazyMap<L>,
    users: LazyMap<U>)

  /** A fresh instance before its first parse. */
  function Initial<L, U>(query: Json): SearchState<L, U> {
    SearchState(query, None, map[], map[])
  }

  /** The assignments at the end of `Search._parse_query`: the lazy dicts
      get a placeholder for every id of the response. */
  function ApplyParse<L, U>(s: SearchState<L, U>, p: SearchParsed): (t: SearchState<L, U>)
    ensures t.query == s.query && t.parsed == Some(p)
    ensures t.listings.Keys == s.listings.Keys + p.records.Keys
    ensures t.users.Keys == s.users.Keys + p.users.Keys
  {
    s.(parsed := Some(p),
       listings := Update(s.listings, Placeholders(p.records.Keys)),
       users := Update(s.users, Placeholders(p.users.Keys)))
  }

  /** `self._parse_query()`: a falsy query changes nothing, an error
      changes nothing, a parse sets the attributes. */
  function ParseInto<L, U>(s: SearchState<L, U>): (r: Result<SearchState<L, U>>)
    ensures !Truthy(s.query) ==> r == Ok(s)
    ensures r.Ok? ==> r.value.query == s.query
    ensures ParseSearch(s.query).Err? ==> r == Err(ParseSearch(s.query).error)
    ensures Truthy(s.query) && ParseSearch(s.query).Ok? ==>
              && ParseSearch(s.query).value.Some?
              && r == Ok(ApplyParse(s, ParseSearch(s.query).value.value))
  {
    var parsed :- ParseSearch(s.query);
    match parsed
    case None => Ok(s)
    case Some(p) => Ok(ApplyParse(s, p))
  }

  /** After a parse, every parsed record key maps to a placeholder in the
      listing dict, and every parsed user key in the user dict (both are
      listing ids), even one whose object was already built; other ids keep
      their entries. */
  lemma ParseResetsLazy<L, U>(s: SearchState<L, U>, p: SearchParsed, id: Json)
    ensures var t := ApplyParse(s, p);
            && (id in p.records ==> t.listings[id] == Pending(id))
            && (id in p.users ==> t.users[id] == Pending(id))
            && (id !in p.records && id in s.listings ==> t.listings[id] == s.listings[id])
            && (id !in p.users && id in s.users ==> t.users[id] == s.users[id])
  {
  }

  /** The user dict is keyed by listing id, not by user id: `users` of a
      parsed search maps each listing id to that listing's user, so the
      placeholders added to the user dict are the listing ids, and a
      subscript builds a user from a listing id. */
  lemma UsersKeyedByListing<L, U>(s: SearchState<L, U>, query: Json, p: SearchParsed)
    requires ParseSearch(query) == Ok(Some(p))
    ensures ApplyParse(s, p).users.Keys == s.users.Keys + p.records.Keys
    ensures forall id :: id in p.records ==> ApplyParse(s, p).users[id] == Pending(id)
  {
    SearchSideMaps(query, p);
  }

  /** Every listing id of a parsed search is hashable, so subscripting the
      lazy dicts with it never raises `TypeError`. */
  lemma ParsedIdsHashable(query: Json, p: SearchParsed)
    requires ParseSearch(query) == Ok(Some(p))
    ensures forall id :: id in p.records ==> Hashable(id)
  {
    ParsedSearchIsSplit(query, p);
    SearchSideMaps(query, p);
    var entries := SearchEntries(query.fields["search_results"]).value;
    IndexIdsFromEntries(entries);
    forall id | id in p.records
      ensures Hashable(id)
    {
      var i :| 0 <= i < |entries| && IdIs(entries[i], id);
    }
  }

  /** The first subscript of a listing id after a parse builds the object
      from the id. */
  lemma LazyListingAfterParse<L, U>(s: SearchState<L, U>, p: SearchParsed, id: Json, make: Json -> Result<L>)
    requires id in p.records && Hashable(id)
    requires make(id).Ok?
    ensures var t := ApplyParse(s, p);
            GetItem(t.listings, id, make) == Ok(Access(make(id).value, t.listings[id := Built(make(id).value)], true))
  {
  }

  /** The state once `get_listings` has its outcome: a failed fetch leaves
      everything as it was; otherwise `query` is the merged response, and
      the parse that follows either sets the attributes or raises after
      `query` was set. */
  function AfterFetch<L, U>(s: SearchState<L, U>, outcome: Result<Json>): (r: (Option<Error>, SearchState<L, U>))
    ensures outcome.Err? ==> r == (Some(outcome.error), s)
    ensures outcome.Ok? ==> r.1.query == outcome.value
    ensures outcome.Ok? && ParseSearch(outcome.value).Err? ==>
              r == (Some(ParseSearch(outcome.value).error), s.(query := outcome.value))
    ensures outcome.Ok? && ParseSearch(outcome.value).Ok? ==> r.0.None?
    ensures outcome.Ok? && ParseSearch(outcome.value).Ok? && ParseSearch(outcome.value).value.Some? ==>
              r.1 == ApplyParse(s.(query := outcome.value), ParseSearch(outcome.value).value.value)
  {
    if outcome.Err? then (Some(outcome.error), s)
    else
      var withQuery := s.(query := outcome.value);
      var parsed := ParseInto(withQuery);
      if parsed.Err? then (Some(parsed.error), withQuery) else (None, parsed.value)
  }

  /** `Search.get_listings` on an instance. */
  method GetListingsInto<L, U>(s: SearchState<L, U>, fetch: string -> Result<Json>, access: string,
                               location: string, kwargs: Params)
    returns (err: Option<Error>, t: SearchState<L, U>, requested: seq<string>)
    ensures |requested| >= 1 && requested[0] == FirstSearchUrl(access, location, kwargs)
    ensures |requested| <= MAX_RESULTS / PAGE_SIZE
    ensures fetch(requested[0]).Err? ==> err == Some(fetch(requested[0]).error) && t == s
    ensures err.None? || t != s ==>
              && fetch(requested[0]).Ok?
              && var first := fetch(requested[0]).value;
              && ListingsCount(first).Ok?
              && |requested| == 1 + ExtraPages(ListingsCount(first).value)
              && Collected(fetch, first, requested[0], |requested| - 1).Ok?
              && t.query == Merge(first, Collected(fetch, first, requested[0], |requested| - 1).value)
    ensures err.Some? && t != s ==> ParseSearch(t.query).Err? && err.value == ParseSearch(t.query).error
    ensures (err, t) == AfterFetch(s, SearchOutcome(fetch, requested[0]))
    ensures var outcome := SearchOutcome(fetch, requested[0]);
            outcome.Ok? && ParseSearch(outcome.value).Ok? ==> err.None? && t.query == outcome.value
    ensures fetch(requested[0]).Ok? && ListingsCount(fetch(requested[0]).value).Err? ==>
              err == Some(ListingsCount(fetch(requested[0]).value).error) && t == s && |requested| == 1
    ensures fetch(requested[0]).Ok? && ListingsCount(fetch(requested[0]).value).Ok? ==>
              |requested| <= 1 + ExtraPages(ListingsCount(fetch(requested[0]).value).value)
  {
    var r;
    r, requested := GetListings(fetch, access, location, kwargs);
    err, t := AfterFetch(s, r).0, AfterFetch(s, r).1;
  }

  /** `Search(location, query)`: parse the given query, then search when a
      location is given and the query is falsy. */
  method NewSearch<L, U>(fetch: string -> Result<Json>, access: string, location: string,
                         query: Json, kwargs: Params)
    returns (err: Option<Error>, t: SearchState<L, U>, requested: seq<string>)
    ensures requested != [] <==> location != "" && !Truthy(query) && ParseInto(Initial<L, U>(query)).Ok?
    ensures requested == [] ==> (err.None? <==> ParseInto(Initial<L, U>(query)).Ok?)
    ensures requested == [] && err.None? ==> t == ParseInto(Initial<L, U>(query)).value
    ensures requested != [] ==> requested[0] == FirstSearchUrl(access, location, kwargs)
    ensures requested != [] ==>
              (err, t) == AfterFetch(ParseInto(Initial<L, U>(query)).value, SearchOutcome(fetch, requested[0]))
  {
    var s := Initial<L, U>(query);
    match ParseInto(s)
    case Err(e) =>
      return Some(e), s, [];
    case Ok(parsedState) =>
      if location != "" && !Truthy(query) {
        err, t, requested := GetListingsInto(parsedState, fetch, access, location, kwargs);
      } else {
        return None, parsedState, [];
      }
  }
}

=== FILE: staticmap.dfy ===
/** The request URL of `googlemaps.get_static`: markers last, then the URL
    cut to at most 2048 characters at its last `|`. */
module StaticMap {
  import opened Values
  import opened Text
  import opened Params

  const MAPS_HOST := "https://maps.googleapis.com/"
  const STATIC_PATH := "maps/api/staticmap?"
  const BASE_URL := MAPS_HOST + STATIC_PATH
  const URL_LIMIT: nat := 2048

  /** `url[:2048]`. */
  function Window(url: string): (w: string)
    ensures |w| <= URL_LIMIT
    ensures |w| == if |url| <= URL_LIMIT then |url| else URL_LIMIT
  {
    url[..if |url| <= URL_LIMIT then |url| else URL_LIMIT]
  }

  /** `url[:2048].rsplit('|', 1)[0]`. */
  function Truncate(url: string): (r: string)
    ensures |r| <= URL_LIMIT
    ensures |r| <= |url| && r == url[..|r|]
    ensures '|' !in Window(url) ==> r == Window(url)
    ensures '|' in Window(url) ==>
              && |r| < |Window(url)|
              && url[|r|] == '|'
              && '|' !in url[|r| + 1..|Window(url)|]
  {
    var w := Window(url);
    match LastIndex(w, '|')
    case None => w
    case Some(i) => w[..i]
  }

  /** `re.search('enc:(.*)\|', path)` finds a match: `enc:` and, later on
      the same line, a `|`. */
  predicate HasEncodedPath(path: string) {
    exists i, j | 0 <= i < j < |path| :: EncodedAt(path, i, j)
  }

  /** `enc:` at `i`, the closing `|` at `j`, no line break between. */
  predicate EncodedAt(path: string, i: int, j: int) {
    StartsAt(path, i, "enc:") && i + 4 <= j < |path| && path[j] == '|' && '\n' !in path[i + 4..j]
  }

  /** The URL before truncation. */
  function AssembledUrl(size: string, kwargs: Params): string {
    var (markerValue, rest) := Pop(kwargs, "markers");
    var markers := if markerValue.Some? then "&markers=" + markerValue.value else "";
    BASE_URL + Query(rest) + "&size=" + size + markers
  }

  /** The URL `get_static` requests. A `path` holding an encoded polyline
      sends it to a module that is not imported: the `NameError` is
      re-raised as `AttributeError`. */
  function StaticUrl(size: string, kwargs: Params): (r: Result<string>)
    ensures r.Err? <==> Lookup(kwargs, "path").Some? && HasEncodedPath(Lookup(kwargs, "path").value)
    ensures r.Err? ==> r.error == AttributeError
    ensures r.Ok? ==> |r.value| <= URL_LIMIT
    ensures r.Ok? ==> |r.value| <= |AssembledUrl(size, kwargs)| && r.value == AssembledUrl(size, kwargs)[..|r.value|]
  {
    var path := match Lookup(kwargs, "path") case Some(p) => p case None => "";
    if HasEncodedPath(path) then Err(AttributeError)
    else Ok(Truncate(AssembledUrl(size, kwargs)))
  }

  /** A path given with an `enc:...|` segment raises, whatever else is
      given; a path without `enc:` does not. */
  lemma EncodedPathRaises(size: string, kwargs: Params, before: string, inner: string, after: string)
    requires Lookup(kwargs, "path") == Some(before + "enc:" + inner + "|" + after)
    requires '\n' !in inner
    ensures StaticUrl(size, kwargs) == Err(AttributeError)
  {
    var path := before + "enc:" + inner + "|" + after;
    assert StartsAt(path, |before|, "enc:");
    assert path[|before| + 4..|before| + 4 + |inner|] == inner;
    assert EncodedAt(path, |before|, |before| + 4 + |inner|);
  }

  /** Without `enc:`, or without any `|`, the path is left alone and the
      request goes ahead. */
  lemma PlainPathPasses(size: string, kwargs: Params)
    requires Lookup(kwargs, "path").Some? ==>
               Absent(Lookup(kwargs, "path").value, "enc:") || '|' !in Lookup(kwargs, "path").value
    ensures StaticUrl(size, kwargs).Ok?
  {
    if Lookup(kwargs, "path").Some? {
      var path := Lookup(kwargs, "path").value;
      forall i, j | 0 <= i < j < |path|
        ensures !EncodedAt(path, i, j)
      {
        assert path[j] in path;
      }
    }
  }

  /** Where the markers go: after the other parameters and the size, as
      `&markers=<value>`, and nowhere when none are given. */
  lemma AssembledLayout(size: string, kwargs: Params)
    ensures Lookup(kwargs, "markers").None? ==> AssembledUrl(size, kwargs) == BASE_URL + Query(kwargs) + "&size=" + size
    ensures Lookup(kwargs, "markers").Some? ==>
              AssembledUrl(size, kwargs)
              == BASE_URL + Query(Pop(kwargs, "markers").1) + "&size=" + size + "&markers=" + Lookup(kwargs, "markers").value
    ensures forall k :: k != "markers" ==> Lookup(Pop(kwargs, "markers").1, k) == Lookup(kwargs, k)
  {
  }

  /** Truncation looks only at the first 2048 characters. */
  lemma TruncateWindowOnly(a: string, b: string)
    requires Window(a) == Window(b)
    ensures Truncate(a) == Truncate(b)
  {
  }

  /** A `|` inside the first 2048 characters with none after it: the cut
      falls on it. */
  lemma CutBeforeLast(head: string, last: string)
    requires |head| < URL_LIMIT
    requires '|' !in last
    ensures Truncate(head + ['|'] + last) == head
  {
    var url := head + ['|'] + last;
    var w := Window(url);
    var seen := last[..|w| - |head| - 1];
    assert w == head + ['|'] + seen;
    LastIndexAfterSep(head, '|', seen);
    assert Truncate(url) == w[..|head|];
    assert w[..|head|] == head;
  }

  /** A URL already within the limit still loses its last `|`-segment: with
      two or more markers, the last one is dropped. */
  lemma ShortUrlDropsLastMarker(prefix: string, ms: seq<string>)
    requires forall i :: 0 <= i < |ms| ==> '|' !in ms[i]
    requires |ms| >= 2
    requires |prefix + Join(ms, '|')| <= URL_LIMIT
    ensures Truncate(prefix + Join(ms, '|')) == prefix + Join(ms[..|ms| - 1], '|')
  {
    var head := prefix + Join(ms[..|ms| - 1], '|');
    assert prefix + Join(ms, '|') == head + ['|'] + ms[|ms| - 1];
    CutBeforeLast(head, ms[|ms| - 1]);
  }

  /** When the markers are the only `|`-separated text, a truncation that
      finds a `|` ends exactly after a whole marker: the result is the
      prefix followed by the first `k` markers, `1 <= k < |ms|`. */
  lemma {:induction false} TruncateAtMarkerBoundary(prefix: string, ms: seq<string>)
    requires '|' !in prefix
    requires forall i :: 0 <= i < |ms| ==> '|' !in ms[i]
    requires '|' in Window(prefix + Join(ms, '|'))
    ensures exists k :: 1 <= k < |ms| && Truncate(prefix + Join(ms, '|')) == prefix + Join(ms[..k], '|')
  {
    var url := prefix + Join(ms, '|');
    if |ms| <= 1 {
      assert false;
    }
    var n := |ms| - 1;
    var head := prefix + Join(ms[..n], '|');
    var last := ms[n];
    assert url == head + ['|'] + last;
    if |head| < URL_LIMIT {
      CutBeforeLast(head, last);
    } else {
      assert Window(url) == Window(head);
      TruncateWindowOnly(url, head);
      assert ms[..n][..n] == ms[..n];
      TruncateAtMarkerBoundary(prefix, ms[..n]);
      var k :| 1 <= k < n && Truncate(head) == prefix + Join(ms[..n][..k], '|');
      assert ms[..n][..k] == ms[..k];
    }
  }

  lemma NoBarInPrefix(query: string, size: string)
    requires '|' !in query && '|' !in size
    ensures '|' !in BASE_URL + query + "&size=" + size + "&markers="
  {
    assert '|' !in MAPS_HOST;
    assert '|' !in STATIC_PATH;
    assert '|' !in "&size=";
    assert '|' !in "&markers=";
  }

  /** When no parameter but the markers holds a `|`, a `path` cannot match
      the encoded pattern, so the request goes ahead with the cut URL. */
  lemma BarFreeParamsPass(size: string, kwargs: Params)
    requires '|' !in Query(Pop(kwargs, "markers").1)
    ensures StaticUrl(size, kwargs) == Ok(Truncate(AssembledUrl(size, kwargs)))
  {
    var rest := Pop(kwargs, "markers").1;
    assert Lookup(rest, "path") == Lookup(kwargs, "path");
    if Lookup(kwargs, "path").Some? && '|' in Lookup(kwargs, "path").value {
      LookupInQuery(rest, "path", '|');
      assert false;
    }
    PlainPathPasses(size, kwargs);
  }

  /** The same for the URL `get_static` requests, with the markers given as
      `'|'.join(ms)` and no `|` in any other parameter or the size. */
  lemma StaticUrlEndsAtMarker(size: string, kwargs: Params, ms: seq<string>)
    requires Lookup(kwargs, "markers") == Some(Join(ms, '|'))
    requires forall i :: 0 <= i < |ms| ==> '|' !in ms[i]
    requires '|' !in Query(Pop(kwargs, "markers").1) && '|' !in size
    requires '|' in Window(AssembledUrl(size, kwargs))
    ensures StaticUrl(size, kwargs).Ok?
    ensures var prefix := BASE_URL + Query(Pop(kwargs, "markers").1) + "&size=" + size + "&markers=";
            exists k :: 1 <= k < |ms| && StaticUrl(size, kwargs).value == prefix + Join(ms[..k], '|')
  {
    var prefix := BASE_URL + Query(Pop(kwargs, "markers").1) + "&size=" + size + "&markers=";
    var url := AssembledUrl(size, kwargs);
    AssembledLayout(size, kwargs);
    assert url == prefix + Join(ms, '|');
    BarFreeParamsPass(size, kwargs);
    assert StaticUrl(size, kwargs) == Ok(Truncate(url));
    NoBarInPrefix(Query(Pop(kwargs, "markers").1), size);
    TruncateAtMarkerBoundary(prefix, ms);
  }
}

=== FILE: text.dfy ===
/** The Python string operations the client relies on: `sep.join`,
    `str.split`, `str.replace`, `str.rfind` and slicing. */
module Text {
  import opened Values

  /** `pat` occurs in `s` at position `i`. */
  predicate StartsAt(s: string, i: int, pat: string) {
    0 <= i && i + |pat| <= |s| && s[i..i + |pat|] == pat
  }

  /** `pat` occurs nowhere in `s`. */
  predicate Absent(s: string, pat: string) {
    forall i :: 0 <= i <= |s| ==> !StartsAt(s, i, pat)
  }

  /** `sep.join(parts)` for a one-character separator. */
  function Join(parts: seq<string>, sep: char): string
  {
    if |parts| == 0 then ""
    else if |parts| == 1 then parts[0]
    else Join(parts[..|parts| - 1], sep) + [sep] + parts[|parts| - 1]
  }

  /** Joining two non-empty runs of parts puts one separator between them. */
  lemma {:induction false} JoinConcat(xs: seq<string>, ys: seq<string>, sep: char)
    requires |xs| >= 1 && |ys| >= 1
    ensures Join(xs + ys, sep) == Join(xs, sep) + [sep] + Join(ys, sep)
    decreases |ys|
  {
    var zs := xs + ys;
    if |ys| == 1 {
      assert zs[..|zs| - 1] == xs;
    } else {
      var ys' := ys[..|ys| - 1];
      assert zs[..|zs| - 1] == xs + ys';
      JoinConcat(xs, ys', sep);
    }
  }

  /** The text of part `p` in a join, with what comes before and after it. */
  lemma JoinAround(parts: seq<string>, p: nat, sep: char)
    requires p < |parts|
    ensures Join(parts, sep) ==
      Join(parts[..p], sep) + (if p > 0 then [sep] else []) + parts[p]
      + (if p + 1 < |parts| then [sep] else []) + Join(parts[p + 1..], sep)
  {
    var pre, x, post := parts[..p], parts[p], parts[p + 1..];
    assert parts == pre + [x] + post;
    if p > 0 && p + 1 < |parts| {
      JoinInner(pre, x, post, sep);
    } else if p > 0 {
      JoinConcat(pre, [x], sep);
    } else if p + 1 < |parts| {
      JoinConcat([x], post, sep);
    }
  }

  /** A part with parts on both sides has a separator on each side. */
  lemma JoinInner(pre: seq<string>, x: string, post: seq<string>, sep: char)
    requires |pre| >= 1 && |post| >= 1
    ensures Join(pre + [x] + post, sep) == Join(pre, sep) + [sep] + x + [sep] + Join(post, sep)
  {
    JoinConcat(pre, [x], sep);
    JoinConcat(pre + [x], post, sep);
  }

  /** `s.rfind(c)`, as an option. */
  function LastIndex(s: string, c: char): (r: Option<nat>)
    ensures r.None? <==> c !in s
    ensures r.Some? ==> r.value < |s| && s[r.value] == c && c !in s[r.value + 1..]
  {
    if |s| == 0 then None
    else if s[|s| - 1] == c then Some(|s| - 1)
    else
      assert s == s[..|s| - 1] + [s[|s| - 1]];
      LastIndex(s[..|s| - 1], c)
  }

  /** `s.split(sep)`: the pieces between separators; always at least one. */
  function Split(s: string, sep: char): (r: seq<string>)
    ensures |r| >= 1
    decreases |s|
  {
    match LastIndex(s, sep)
    case None => [s]
    case Some(i) => Split(s[..i], sep) + [s[i + 1..]]
  }

  /** `s.replace(pat, rep)`: leftmost, non-overlapping occurrences. */
  function Replace(s: string, pat: string, rep: string): string
    requires |pat| > 0
    decreases |s|
  {
    if |s| < |pat| then s
    else if s[..|pat|] == pat then rep + Replace(s[|pat|..], pat, rep)
    else [s[0]] + Replace(s[1..], pat, rep)
  }

  /** The last separator of `a + [sep] + b` is the one after `a` when `b`
      holds none. */
  lemma {:induction false} LastIndexAfterSep(a: string, sep: char, b: string)
    requires sep !in b
    ensures LastIndex(a + [sep] + b, sep) == Some(|a|)
  {
    var s := a + [sep] + b;
    if |b| > 0 {
      var b' := b[..|b| - 1];
      assert s[|s| - 1] == b[|b| - 1];
      assert s[..|s| - 1] == a + [sep] + b';
      LastIndexAfterSep(a, sep, b');
    }
  }

  /** Splitting at a last separator peels off the text after it. */
  lemma SplitLast(j: string, sep: char, last: string)
    requires sep !in last
    ensures Split(j + [sep] + last, sep) == Split(j, sep) + [last]
  {
    var s := j + [sep] + last;
    LastIndexAfterSep(j, sep, last);
    assert s[..|j|] == j;
    assert s[|j| + 1..] == last;
  }

  /** Splitting a join gives back the parts, as long as no part holds the
      separator. */
  lemma {:induction false} SplitJoin(parts: seq<string>, sep: char)
    requires |parts| >= 1
    requires forall i :: 0 <= i < |parts| ==> sep !in parts[i]
    ensures Split(Join(parts, sep), sep) == parts
  {
    if |parts| > 1 {
      var init := parts[..|parts| - 1];
      var last := parts[|parts| - 1];
      assert Join(parts, sep) == Join(init, sep) + [sep] + last;
      SplitLast(Join(init, sep), sep, last);
      assert forall i :: 0 <= i < |init| ==> init[i] == parts[i];
      SplitJoin(init, sep);
      assert parts == init + [last];
    }
  }

  /** An occurrence of a longer pattern is an occurrence of its prefix. */
  lemma StartsAtPrefix(s: string, i: int, pat: string, more: string)
    requires StartsAt(s, i, pat + more)
    ensures StartsAt(s, i, pat)
  {
    assert s[i..i + |pat|] == s[i..i + |pat + more|][..|pat|];
  }

  /** An occurrence that ends inside a prefix is an occurrence in that prefix. */
  lemma StartsAtWithin(s: string, t: string, i: int, pat: string)
    requires |t| <= |s| && s[..|t|] == t
    requires StartsAt(s, i, pat) && i + |pat| <= |t|
    ensures StartsAt(t, i, pat)
  {
    assert t[i..i + |pat|] == s[i..i + |pat|];
  }

  /** A replace that never finds its pattern returns its input. */
  lemma {:induction false} ReplaceAbsent(s: string, pat: string, rep: string)
    requires |pat| > 0
    requires Absent(s, pat)
    ensures Replace(s, pat, rep) == s
    decreases |s|
  {
    if |s| < |pat| {
    } else {
      assert !StartsAt(s, 0, pat);
      forall i | 0 <= i <= |s[1..]|
        ensures !StartsAt(s[1..], i, pat)
      {
        assert !StartsAt(s, i + 1, pat);
      }
      ReplaceAbsent(s[1..], pat, rep);
    }
  }

  /** A prefix in which no occurrence starts is copied unchanged. */
  lemma {:induction false} ReplaceSkip(x: string, y: string, pat: string, rep: string)
    requires |pat| > 0
    requires forall i :: 0 <= i < |x| ==> !StartsAt(x + y, i, pat)
    ensures Replace(x + y, pat, rep) == x + Replace(y, pat, rep)
    decreases |x|
  {
    if |x| == 0 {
      assert x + y == y;
    } else {
      var s := x + y;
      assert !StartsAt(s, 0, pat);
      if |s| < |pat| {
        assert Replace(y, pat, rep) == y;
      } else {
        assert s[1..] == x[1..] + y;
        forall i | 0 <= i < |x[1..]|
          ensures !StartsAt(x[1..] + y, i, pat)
        {
          assert !StartsAt(s, i + 1, pat);
        }
        ReplaceSkip(x[1..], y, pat, rep);
        assert [s[0]] + (x[1..] + Replace(y, pat, rep)) == x + Replace(y, pat, rep);
      }
    }
  }

  /** An occurrence at the front is rewritten and scanning resumes after it. */
  lemma ReplaceFront(y: string, pat: string, rep: string)
    requires |pat| > 0
    ensures Replace(pat + y, pat, rep) == rep + Replace(y, pat, rep)
  {
    assert (pat + y)[..|pat|] == pat;
    assert (pat + y)[|pat|..] == y;
  }

  /** Replacing a single character by text that lacks it leaves none behind. */
  lemma {:induction false} ReplaceRemovesChar(s: string, c: char, rep: string)
    requires c !in rep
    ensures c !in Replace(s, [c], rep)
    decreases |s|
  {
    if |s| < 1 {
    } else if s[..1] == [c] {
      ReplaceRemovesChar(s[1..], c, rep);
    } else {
      assert s[0] != c by { assert s[..1] == [s[0]]; }
      ReplaceRemovesChar(s[1..], c, rep);
    }
  }
}

=== FILE: urls.dfy ===
/** Request URLs of the marketplace API: the access fragment chosen by
    `AuthSetup.__init__`, `Query._setup_url`, the search parameters fixed by
    `Search.get_listings`, and the textual `_offset=` rewrite between pages. */
module Urls {
  import opened Values
  import opened Text
  import opened Decimal
  import opened Params

  const API_URL := "https://api.airbnb.com/v2/"
  const CLIENT_ID := "3092nxybyb0otqw18e8nh5nty"
  const SEARCH_ENDPOINT := "search_results?"
  const PAGE_SIZE: nat := 50
  const LEGACY_FORMAT := "v1_legacy_for_p3"
  const OFFSET_KEY := "_offset="

  /** A logged-in account; `uid` is the account id as it is printed into URLs. */
  datatype Auth = Auth(uid: string, token: string)

  /** `self.uid` after `AuthSetup.__init__`: the explicit auth, else the
      process-wide current auth, else the anonymous client id. */
  function AccessFragment(auth: Option<Auth>, current: Option<Auth>): (access: string)
    ensures auth.Some? ==> access == auth.value.uid
    ensures auth.None? && current.Some? ==> access == current.value.uid
    ensures auth.None? && current.None? ==> access == "client_id=" + CLIENT_ID
  {
    var effective := if auth.Some? then auth else current;
    match effective
    case Some(a) => a.uid
    case None => "client_id=" + CLIENT_ID
  }

  /** `Query._setup_url`: plain concatenation, parameters after a `&`. */
  function SetupUrl(apiUrl: string, endpoint: string, access: string, kw: Params): string {
    apiUrl + endpoint + access + "&" + Query(kw)
  }

  /** The `k=v` pairs of a URL come back, in keyword order, from its query
      text, provided no key or value holds a `&`. */
  lemma SetupUrlPairsInOrder(apiUrl: string, endpoint: string, access: string, kw: Params)
    requires |kw| >= 1
    requires forall i :: 0 <= i < |kw| ==> '&' !in kw[i].0 && '&' !in kw[i].1
    ensures var head := apiUrl + endpoint + access + "&";
            var url := SetupUrl(apiUrl, endpoint, access, kw);
            |head| <= |url| && url[..|head|] == head && Split(url[|head|..], '&') == Render(kw)
  {
    var head := apiUrl + endpoint + access + "&";
    var url := SetupUrl(apiUrl, endpoint, access, kw);
    assert url == head + Query(kw);
    assert url[|head|..] == Query(kw);
    var parts := Render(kw);
    forall i | 0 <= i < |parts|
      ensures '&' !in parts[i]
    {
      assert parts[i] == kw[i].0 + "=" + kw[i].1;
    }
    SplitJoin(parts, '&');
  }

  /** With no keyword arguments the URL still ends in a lone `&`. */
  lemma SetupUrlNoParams(apiUrl: string, endpoint: string, access: string)
    ensures SetupUrl(apiUrl, endpoint, access, []) == apiUrl + endpoint + access + "&"
    ensures SetupUrl(apiUrl, endpoint, access, [])[|apiUrl + endpoint + access|] == '&'
  {
    assert Render([]) == [];
  }

  /** The parameters `get_listings` sends: `_limit=50` and `_offset=0` override
      the caller's, and a non-empty location is stored with spaces as `%20`. */
  function SearchParams(kwargs: Params, location: string): (kw: Params)
    ensures Lookup(kw, "_limit") == Some(NatToString(PAGE_SIZE))
    ensures Lookup(kw, "_offset") == Some("0")
    ensures location != "" ==>
              Lookup(kw, "location").Some? && ' ' !in Lookup(kw, "location").value
    ensures location == "" ==> Lookup(kw, "location") == Lookup(kwargs, "location")
    ensures forall k :: k != "_limit" && k != "_offset" && k != "location" ==>
              Lookup(kw, k) == Lookup(kwargs, k)
  {
    assert "_limit" != "_offset" && "_limit" != "location" && "_offset" != "location";
    var withLimit := Put(kwargs, "_limit", NatToString(PAGE_SIZE));
    var withOffset := Put(withLimit, "_offset", NatToString(0));
    if location != "" then
      ReplaceRemovesChar(location, ' ', "%20");
      Put(withOffset, "location", EscapeSpaces(location))
    else withOffset
  }

  /** The caller's parameters keep their positions in the search
      parameters; updates change values, not the order. */
  lemma SearchParamsKeepPositions(kwargs: Params, location: string)
    ensures var kw := SearchParams(kwargs, location);
            |kwargs| <= |kw| && forall i :: 0 <= i < |kwargs| ==> kw[i].0 == kwargs[i].0
  {
    var withLimit := Put(kwargs, "_limit", NatToString(PAGE_SIZE));
    var withOffset := Put(withLimit, "_offset", NatToString(0));
    PutKeepsKeys(kwargs, "_limit", NatToString(PAGE_SIZE));
    PutKeepsKeys(withLimit, "_offset", NatToString(0));
    if location != "" {
      PutKeepsKeys(withOffset, "location", EscapeSpaces(location));
      assert SearchParams(kwargs, location) == Put(withOffset, "location", EscapeSpaces(location));
    } else {
      assert SearchParams(kwargs, location) == withOffset;
    }
  }

  /** Parameters the caller did not give are appended in the order of the
      updates: `_limit`, `_offset`, then `location`. */
  lemma SearchParamsAppended(kwargs: Params, location: string)
    requires Lookup(kwargs, "_limit").None? && Lookup(kwargs, "_offset").None? && Lookup(kwargs, "location").None?
    ensures SearchParams(kwargs, location)
            == kwargs + [("_limit", NatToString(PAGE_SIZE)), ("_offset", "0")]
               + (if location != "" then [("location", EscapeSpaces(location))] else [])
  {
    var withOffset := Put(Put(kwargs, "_limit", NatToString(PAGE_SIZE)), "_offset", NatToString(0));
    LimitOffsetAppended(kwargs);
    if location != "" {
      assert "location" != "_limit" && "location" != "_offset";
      assert Lookup(withOffset, "location").None?;
      assert SearchParams(kwargs, location) == Put(withOffset, "location", EscapeSpaces(location));
    } else {
      assert SearchParams(kwargs, location) == withOffset;
    }
  }

  /** The two paging updates append their pairs when neither key is given. */
  lemma LimitOffsetAppended(kwargs: Params)
    requires Lookup(kwargs, "_limit").None? && Lookup(kwargs, "_offset").None?
    ensures Put(Put(kwargs, "_limit", NatToString(PAGE_SIZE)), "_offset", NatToString(0))
            == kwargs + [("_limit", NatToString(PAGE_SIZE)), ("_offset", "0")]
  {
    assert "_limit" != "_offset";
    var withLimit := Put(kwargs, "_limit", NatToString(PAGE_SIZE));
    assert withLimit == kwargs + [("_limit", NatToString(PAGE_SIZE))];
    assert Lookup(withLimit, "_offset").None?;
    assert NatToString(0) == "0";
  }

  /** Assignment keeps every existing key in its position. */
  lemma PutKeepsKeys(kw: Params, k: string, v: string)
    ensures |kw| <= |Put(kw, k, v)| && forall i :: 0 <= i < |kw| ==> Put(kw, k, v)[i].0 == kw[i].0
  {
    if Lookup(kw, k).None? {
      assert forall i :: 0 <= i < |kw| ==> (kw + [(k, v)])[i] == kw[i];
    }
  }

  /** `location.replace(' ', '%20')`. */
  function EscapeSpaces(location: string): string {
    Replace(location, " ", "%20")
  }

  /** The search parameters are still a dict: no key is listed twice. */
  lemma SearchParamsDistinct(kwargs: Params, location: string)
    requires DistinctKeys(kwargs)
    ensures DistinctKeys(SearchParams(kwargs, location))
  {
    assert "_limit" != "_offset" && "_limit" != "location" && "_offset" != "location";
    var withLimit := Put(kwargs, "_limit", NatToString(PAGE_SIZE));
    PutKeepsDistinct(kwargs, "_limit", NatToString(PAGE_SIZE));
    var withOffset := Put(withLimit, "_offset", NatToString(0));
    PutKeepsDistinct(withLimit, "_offset", NatToString(0));
    if location != "" {
      PutKeepsDistinct(withOffset, "location", EscapeSpaces(location));
    }
  }

  /** The location as sent: every space becomes `%20`, nothing else changes. */
  lemma LocationEscaped(kwargs: Params, location: string)
    requires location != ""
    ensures Lookup(SearchParams(kwargs, location), "location") == Some(EscapeSpaces(location))
    ensures ' ' in location ==> EscapeSpaces(location) != location
    ensures ' ' !in location ==> EscapeSpaces(location) == location
  {
    ReplaceRemovesChar(location, ' ', "%20");
    if ' ' !in location {
      forall i | 0 <= i <= |location|
        ensures !StartsAt(location, i, " ")
      {
        if i < |location| {
          assert location[i..i + 1] == [location[i]];
        }
      }
      ReplaceAbsent(location, " ", "%20");
    }
  }

  /** The URL of the first search page. */
  function FirstSearchUrl(access: string, location: string, kwargs: Params): string {
    SetupUrl(API_URL, SEARCH_ENDPOINT, access, SearchParams(kwargs, location))
  }

  /** `'_offset={}'.format(n)`. */
  function OffsetText(n: nat): string {
    OFFSET_KEY + NatToString(n)
  }

  /** The URL of page `j`: page `j - 1`'s URL with `_offset=<50(j-1)>`
      replaced by `_offset=<50j>` wherever it occurs. */
  function PageUrl(url0: string, j: nat): string {
    if j == 0 then url0
    else Replace(PageUrl(url0, j - 1), OffsetText(PAGE_SIZE * (j - 1)), OffsetText(PAGE_SIZE * j))
  }

  /** No `_offset=` starts before the one at the end of `head + "_offset="`. */
  predicate OffsetOnlyAtEnd(head: string) {
    forall i :: 0 <= i < |head| ==> !StartsAt(head + OFFSET_KEY, i, OFFSET_KEY)
  }

  /** One page step rewrites exactly the offset value and nothing else. */
  lemma PageStep(head: string, tail: string, j: nat)
    requires OffsetOnlyAtEnd(head) && Absent(tail, OFFSET_KEY)
    ensures Replace(head + OffsetText(PAGE_SIZE * j) + tail,
                    OffsetText(PAGE_SIZE * j), OffsetText(PAGE_SIZE * (j + 1)))
            == head + OffsetText(PAGE_SIZE * (j + 1)) + tail
  {
    var d := NatToString(PAGE_SIZE * j);
    var pat := OffsetText(PAGE_SIZE * j);
    var rep := OffsetText(PAGE_SIZE * (j + 1));
    var u := head + pat + tail;
    assert u == head + (pat + tail);
    forall i | 0 <= i < |head|
      ensures !StartsAt(u, i, pat)
    {
      if StartsAt(u, i, pat) {
        StartsAtPrefix(u, i, OFFSET_KEY, d);
        assert u[..|head + OFFSET_KEY|] == head + OFFSET_KEY;
        StartsAtWithin(u, head + OFFSET_KEY, i, OFFSET_KEY);
        assert false;
      }
    }
    ReplaceSkip(head, pat + tail, pat, rep);
    ReplaceFront(tail, pat, rep);
    forall i | 0 <= i <= |tail|
      ensures !StartsAt(tail, i, pat)
    {
      if StartsAt(tail, i, pat) {
        StartsAtPrefix(tail, i, OFFSET_KEY, d);
        assert false;
      }
    }
    ReplaceAbsent(tail, pat, rep);
  }

  /** Page `j` differs from the first URL only in the offset value, `50j`. */
  lemma {:induction false} PageUrlShape(head: string, tail: string, j: nat)
    requires OffsetOnlyAtEnd(head) && Absent(tail, OFFSET_KEY)
    ensures PageUrl(head + OffsetText(0) + tail, j) == head + OffsetText(PAGE_SIZE * j) + tail
  {
    if j > 0 {
      PageUrlShape(head, tail, j - 1);
      PageStep(head, tail, j - 1);
    }
  }

  /** The text of a URL before the `_offset=` of parameter `p`. */
  function OffsetHead(apiUrl: string, endpoint: string, access: string, kw: Params, p: nat): string
    requires p < |kw|
  {
    apiUrl + endpoint + access + "&" + Join(Render(kw)[..p], '&') + (if p > 0 then "&" else "")
  }

  /** The text of a URL after the value of parameter `p`. */
  function OffsetTail(kw: Params, p: nat): string
    requires p < |kw|
  {
    (if p + 1 < |kw| then "&" else "") + Join(Render(kw)[p + 1..], '&')
  }

  /** The first URL splits around its `_offset=0` parameter. */
  lemma FirstUrlShape(apiUrl: string, endpoint: string, access: string, kw: Params, p: nat)
    requires p < |kw| && kw[p] == ("_offset", "0")
    ensures SetupUrl(apiUrl, endpoint, access, kw)
            == OffsetHead(apiUrl, endpoint, access, kw, p) + OffsetText(0) + OffsetTail(kw, p)
  {
    var parts := Render(kw);
    var head := apiUrl + endpoint + access + "&";
    var a, b := Join(parts[..p], '&'), if p > 0 then "&" else "";
    var c, d := if p + 1 < |kw| then "&" else "", Join(parts[p + 1..], '&');
    JoinAround(parts, p, '&');
    assert parts[p] == OffsetText(0);
    assert Query(kw) == a + b + OffsetText(0) + c + d;
    AppendRegroup(head, a, b, OffsetText(0), c, d);
  }

  lemma AppendRegroup(x: string, a: string, b: string, m: string, c: string, d: string)
    ensures x + (a + b + m + c + d) == (x + a + b) + m + (c + d)
  {
  }


  /** Every search page URL is the first one with only its offset value
      changed to 50 times the page number, provided no other part of the
      URL spells `_offset=`. */
  lemma SearchPageUrl(access: string, location: string, kwargs: Params, p: nat, j: nat)
    requires DistinctKeys(kwargs)
    requires p < |SearchParams(kwargs, location)|
    requires SearchParams(kwargs, location)[p].0 == "_offset"
    requires OffsetOnlyAtEnd(OffsetHead(API_URL, SEARCH_ENDPOINT, access, SearchParams(kwargs, location), p))
    requires Absent(OffsetTail(SearchParams(kwargs, location), p), OFFSET_KEY)
    ensures var kw := SearchParams(kwargs, location);
            PageUrl(FirstSearchUrl(access, location, kwargs), j)
            == OffsetHead(API_URL, SEARCH_ENDPOINT, access, kw, p) + OffsetText(PAGE_SIZE * j)
               + OffsetTail(kw, p)
  {
    var kw := SearchParams(kwargs, location);
    SearchParamsDistinct(kwargs, location);
    LookupAt(kw, p);
    FirstUrlShape(API_URL, SEARCH_ENDPOINT, access, kw, p);
    PageUrlShape(OffsetHead(API_URL, SEARCH_ENDPOINT, access, kw, p), OffsetTail(kw, p), j);
  }

  /** The user-detail URL, `users/<id>?`. */
  function UserUrl(access: string, userId: string, kwargs: Params): string {
    SetupUrl(API_URL, "users/" + userId + "?", access, kwargs)
  }

  /** `get_listing` always asks for the legacy response shape. */
  function ListingParams(kwargs: Params): (kw: Params)
    ensures Lookup(kw, "_format") == Some(LEGACY_FORMAT)
    ensures forall k :: k != "_format" ==> Lookup(kw, k) == Lookup(kwargs, k)
  {
    Put(kwargs, "_format", LEGACY_FORMAT)
  }

  /** The listing-detail URL, `listings/<id>?`. */
  function ListingUrl(access: string, listingId: string, kwargs: Params): string {
    SetupUrl(API_URL, "listings/" + listingId + "?", access, ListingParams(kwargs))
  }
}

=== FILE: values.dfy ===
/** Decoded JSON values, the Python exceptions the client can raise, and the
    subscript / truthiness / iteration rules of Python applied to them. */
module Values {

  /** A decoded JSON document. Objects are unordered here (see README). */
  datatype Json =
    | JNull
    | JBool(b: bool)
    | JInt(n: int)
    | JStr(s: string)
    | JArr(items: seq<Json>)
    | JObj(fields: map<string, Json>)

  /** Exception kinds. Which key was missing is not recorded: when several
      listings miss a key, which one Python reports depends on dict order. */
  datatype Error =
    | KeyError
    | TypeError
    | AttributeError
    | UnorderedIteration      // enumerating a non-empty object, whose key order is not kept
    | HttpError(status: int)  // raise_for_status of the page source
    | DecodeError             // res.json() on a body that is not JSON

  datatype Option<T> = None | Some(value: T)

  datatype Result<T> = Ok(value: T) | Err(error: Error) {
    predicate IsFailure() { Err? }
    function PropagateFailure<U>(): Result<U>
      requires Err?
    {
      Err(error)
    }
    function Extract(): T
      requires Ok?
    {
      value
    }
  }

  /** Python truthiness: None, False, 0 and empty containers are false. */
  predicate Truthy(j: Json) {
    match j
    case JNull => false
    case JBool(b) => b
    case JInt(n) => n != 0
    case JStr(s) => s != ""
    case JArr(items) => items != []
    case JObj(fields) => fields != map[]
  }

  /** `j[key]` with a string key. */
  function Subscript(j: Json, key: string): (r: Result<Json>)
    ensures r.Ok? <==> j.JObj? && key in j.fields
    ensures r.Ok? ==> r.value == j.fields[key]
    ensures r.Err? ==> r.error == (if j.JObj? then KeyError else TypeError)
  {
    match j
    case JObj(m) => if key in m then Ok(m[key]) else Err(KeyError)
    case _ => Err(TypeError)
  }

  /** Only scalars can be dict keys; lists and dicts are unhashable. */
  predicate Hashable(j: Json) {
    !j.JArr? && !j.JObj?
  }

  /** The elements `for x in j` visits: a list's items, a string's
      one-character strings, nothing for an empty object. */
  function Iterate(j: Json): (r: Result<seq<Json>>)
    ensures j.JArr? ==> r == Ok(j.items)
    ensures j.JStr? ==> r.Ok? && |r.value| == |j.s|
                        && forall i :: 0 <= i < |j.s| ==> r.value[i] == JStr([j.s[i]])
    ensures r.Err? <==> (j.JObj? && j.fields != map[]) || j.JNull? || j.JBool? || j.JInt?
  {
    match j
    case JArr(items) => Ok(items)
    case JStr(s) => Ok(seq(|s|, i requires 0 <= i < |s| => JStr([s[i]])))
    case JObj(m) => if m == map[] then Ok([]) else Err(UnorderedIteration)
    case _ => Err(TypeError)
  }

  /** A Python number as an int: bools are ints in Python. */
  function AsNumber(j: Json): (r: Result<int>)
    ensures r.Ok? <==> j.JInt? || j.JBool?
    ensures j.JInt? ==> r == Ok(j.n)
  {
    match j
    case JInt(n) => Ok(n)
    case JBool(b) => Ok(if b then 1 else 0)
    case _ => Err(TypeError)
  }
}
